=== FILE: README.md ===
# Expense and task trackers: a Dafny model

This project models the logic of two small command-line Java tools from the
Roadmap.sh projects repository.

- **ExpenseTracker** keeps a list of expenses. Each expense has an id, an
  amount, a description, a date and a category. The tool can:
  - add, update and delete expenses;
  - print the total, the whole list, one calendar month's expenses, or the
    expenses of one category;
  - set a budget for a month, then warn when the current month's spending
    is above that budget.

  Dates are stored through `LocalDateAdapter` in the ISO local-date form
  `YYYY-MM-DD`.
- **TaskTracker** keeps a list of tasks. Each task has an id, a name, a
  status and two time stamps. Its `main` dispatches on `add`, `update`,
  `delete` and `list`, and checks how many arguments each command was given.

Both tools load the whole list, run the operations, and write the list back.
The model keeps the list as a `seq` and the budgets as a `map`. Every operation
is a pure function from the loaded list and its already-parsed arguments to a
new list plus a report of what the tool prints.

Modules:

| module | file | what it holds |
|---|---|---|
| `Wrappers` | wrappers.dfy | `Option` |
| `Seqs` | seqs.dfy | order-preserving `Filter`, `FindFirst` and `RemoveAt` over sequences, with their lemmas |
| `Digits` | digits.dfy | decimal digit strings: value, fixed-width and zero-padded rendering |
| `LocalDateAdapter` | local_date.dfy | proleptic-Gregorian dates and the strict ISO local-date codec |
| `Expenses` | expense.dfy | the expense record, its setters, and category parsing |
| `ExpenseLedger` | ledger.dfy | each `ExpenseTracker` operation on one snapshot |
| `ExpenseTracker` | tracker.dfy | one run of `ExpenseTracker.main`: the fixed order of operations, aborts, and the save |
| `TaskTracker` | tasks.dfy | the task operations and `TaskTracker.main` |

Inputs the Java code takes from the environment are parameters here:
- `today` stands for `LocalDate.now()`;
- `freshId` stands for `UUID.randomUUID()`;
- `now` stands for TaskTracker's single `LocalDateTime.now()`;
- `stored` is the list the JSON loader returned.

Amounts are whole cents (`int`). `Double.parseDouble`, `UUID.fromString` and
`Month.valueOf` are not modelled character by character. Their outcome is an
input: `Option<Cents>`, the `IdParse` cases, and `Option<Month>`.

How exceptions behave in `ExpenseTracker.main`, as the code is written:
- `updateExpense` catches only `NumberFormatException`.
- Two failures are plain `IllegalArgumentException`s and are not caught:
  - an id token with the wrong shape (`UUID.fromString`);
  - an unknown category token (`ExpenseCategory.valueOf`).

  Either one ends the run, and nothing is saved. The same happens for a month
  number outside 1..12 in `--month-summary` (`Month.of`), and for a
  `--set-budget` whose month or amount does not parse.
- The model reports each such abort as `Aborted`. `ExpenseTracker.Aborts` names
  these requests from the request alone, and `ExpenseTracker.Run` proves that a
  run saves exactly when it neither shows help nor holds such a request.
- `deleteExpense` catches every `IllegalArgumentException`. So a bad id there is
  only reported, and the run goes on.

The category of an expense comes from how `ExpenseTracker.java` uses it
(`new Expense(amount, description, category)`, `setCategory`, `getCategory`).
The `Expense.java` in the repository has no category field and only a
two-argument constructor. The model gives the record a `category` field and a
three-argument constructor. The `ExpenseCategory` enum is not part of this
model's sources. Its constants are taken to be `FOOD`, `TRANSPORT`,
`ENTERTAINMENT`, `UTILITIES`, `HEALTH` and `OTHER`.

## Model

| member | source | states |
|---|---|---|
| Seqs.FindFirst | java/ExpenseTracker/src/main/java/com/azvtech/ExpenseTracker.java:375-382 | the result is the first index whose element matches; `None` exactly when no element matches |
| Seqs.Filter | java/ExpenseTracker/src/main/java/com/azvtech/ExpenseTracker.java:443-445 | a stream `filter`: an element is in the result exactly when it is in the input and satisfies the predicate |
| Seqs.FilterMultiset | java/ExpenseTracker/src/main/java/com/azvtech/ExpenseTracker.java:480-482 | filtering keeps every copy of a selected element and drops every copy of the others |
| Seqs.FilterSubsequence | java/ExpenseTracker/src/main/java/com/azvtech/ExpenseTracker.java:480-482 | the filtered list keeps the input's order (it is a subsequence) |
| Seqs.FilterAppend | java/ExpenseTracker/src/main/java/com/azvtech/ExpenseTracker.java:506-507 | filtering a concatenation is the concatenation of the filtered parts |
| Seqs.FilterAll | java/TaskTracker/src/main/java/com/fajdev/TaskTracker/TaskTracker.java:138 | a predicate every element satisfies selects the whole list |
| Seqs.RemoveAt | java/ExpenseTracker/src/main/java/com/azvtech/ExpenseTracker.java:360 | removing one element keeps the elements before it and shifts the later ones down by one |
| Digits.ValueOfFixed | java/ExpenseTracker/src/main/java/com/azvtech/LocalDateAdapter.java:19 | a number below 10^w, written zero-padded in w digits, reads back as that number |
| Digits.FixedOfValue | java/ExpenseTracker/src/main/java/com/azvtech/LocalDateAdapter.java:19 | a digit string written back at its own width gives the same string, leading zeros included |
| LocalDateAdapter.Write | java/ExpenseTracker/src/main/java/com/azvtech/LocalDateAdapter.java:19-24 | for years 0 to 9999 the written date has the RFC 3339 `full-date` shape: 10 characters, `-` at positions 4 and 7, digits everywhere else |
| LocalDateAdapter.Read | java/ExpenseTracker/src/main/java/com/azvtech/LocalDateAdapter.java:27-29 | the strict parse yields only dates that exist (month 1-12, day within the month under the leap-year rule, year within `LocalDate`'s range), and only from text that is a year field (four digits, `+` and five to ten digits, or `-` and four to ten digits, not zero) followed by `-MM-DD`, whose month and day digits are the date's |
| LocalDateAdapter.ReadRejectsMalformed | java/ExpenseTracker/src/main/java/com/azvtech/LocalDateAdapter.java:27-29 | a wrong separator, a one-digit month, a two-digit year, `+` before a four-digit year, the year minus zero, and text after the day are each rejected |
| LocalDateAdapter.ReadWrite | java/ExpenseTracker/src/main/java/com/azvtech/LocalDateAdapter.java:19-29 | reading a written date gives the same date, for every representable date including signed years |
| LocalDateAdapter.ReadFullDate | java/ExpenseTracker/src/main/java/com/azvtech/LocalDateAdapter.java:27-29 | a `YYYY-MM-DD` string parses exactly when its month is 1-12 and its day exists in that month, and then to the date its digits spell |
| LocalDateAdapter.WriteRead | java/ExpenseTracker/src/main/java/com/azvtech/LocalDateAdapter.java:19-29 | writing the date read from a `YYYY-MM-DD` string gives that string back |
| Expenses.ParseCategory | java/ExpenseTracker/src/main/java/com/azvtech/ExpenseTracker.java:276 | `valueOf(token.toUpperCase())` yields category c exactly when c's name is the upper-cased token, where upper-casing maps `a`-`z`, dotless `ı` to `I` and long `ſ` to `S` |
| Expenses.ParseNonAsciiLetters | java/ExpenseTracker/src/main/java/com/azvtech/ExpenseTracker.java:276 | a token spelled with dotless `ı` or long `ſ` in place of `i` or `s` still parses to the category it upper-cases to |
| Expenses.ParseCategoryAnyCase | java/ExpenseTracker/src/main/java/com/azvtech/ExpenseTracker.java:474 | a category name in any mix of upper and lower case parses to that category |
| Expenses.ParseLowerName | java/ExpenseTracker/src/main/java/com/azvtech/ExpenseTracker.java:309 | the lower-case spelling of each category is accepted |
| Expenses.NewExpense | java/ExpenseTracker/src/main/java/com/azvtech/Expense.java:12-17 | a new expense has the fresh id, the given amount, description and category, and today's date |
| Expenses.SetAmount | java/ExpenseTracker/src/main/java/com/azvtech/Expense.java:27-29 | only the amount changes; id, description, date and category are kept |
| Expenses.SetDescription | java/ExpenseTracker/src/main/java/com/azvtech/Expense.java:35-37 | only the description changes |
| Expenses.SetDate | java/ExpenseTracker/src/main/java/com/azvtech/Expense.java:43-45 | only the date changes |
| Expenses.SetCategory | java/ExpenseTracker/src/main/java/com/azvtech/ExpenseTracker.java:318 | only the category changes |
| Expenses.IdIsFinal | java/ExpenseTracker/src/main/java/com/azvtech/Expense.java:7 | no sequence of setter calls changes an expense's id |
| ExpenseLedger.FindById | java/ExpenseTracker/src/main/java/com/azvtech/ExpenseTracker.java:375-382 | the first expense with the id, if any; not found exactly when no expense has the id |
| ExpenseLedger.AddExpense | java/ExpenseTracker/src/main/java/com/azvtech/ExpenseTracker.java:269-287 | a bad amount changes nothing; otherwise exactly one expense is appended, with the fresh id, the amount, the description and today's date; an unknown category becomes `Other` and is flagged |
| ExpenseLedger.UpdateExpense | java/ExpenseTracker/src/main/java/com/azvtech/ExpenseTracker.java:304-327 | the outcome for each input: aborts exactly on a bad id shape, or on an unknown category after a good id and amount; a format error exactly on bad id digits or amount; not found exactly when the id is absent; otherwise only the first expense with the id changes, taking the new amount, description and category; so an update happens exactly when the id, amount and category all parse and the id is present |
| ExpenseLedger.DeleteExpense | java/ExpenseTracker/src/main/java/com/azvtech/ExpenseTracker.java:347-367 | a malformed id or an absent id changes nothing; otherwise the first expense with the id is removed and reported |
| ExpenseLedger.SumAmounts | java/ExpenseTracker/src/main/java/com/azvtech/ExpenseTracker.java:422-427 | the accumulation loop ends with the sum of all amounts |
| ExpenseLedger.ExpenseSummary | java/ExpenseTracker/src/main/java/com/azvtech/ExpenseTracker.java:416-428 | an empty list gives the "no expenses" report; any other list gives its total |
| ExpenseLedger.ListAll | java/ExpenseTracker/src/main/java/com/azvtech/ExpenseTracker.java:394-403 | an empty list gives the "none recorded" report; any other list is listed whole, in order |
| ExpenseLedger.TotalAppend | java/ExpenseTracker/src/main/java/com/azvtech/ExpenseTracker.java:422-427 | the total of two lists joined is the sum of their totals |
| ExpenseLedger.AddRaisesTotal | java/ExpenseTracker/src/main/java/com/azvtech/ExpenseTracker.java:281-282 | an add raises the total by exactly the new amount |
| ExpenseLedger.DeleteLowersTotal | java/ExpenseTracker/src/main/java/com/azvtech/ExpenseTracker.java:360 | a delete lowers the total by exactly the deleted amount, and leaves it alone otherwise |
| ExpenseLedger.UpdateShiftsTotal | java/ExpenseTracker/src/main/java/com/azvtech/ExpenseTracker.java:316 | an update replaces the old amount of the updated expense with the new one in the total |
| ExpenseLedger.AddKeepsIdsDistinct | java/ExpenseTracker/src/main/java/com/azvtech/ExpenseTracker.java:281-282 | adding under an id no expense has keeps ids distinct, and the id then finds the new expense |
| ExpenseLedger.UpdateKeepsIds | java/ExpenseTracker/src/main/java/com/azvtech/ExpenseTracker.java:316-318 | an update keeps the length and every id in its place |
| ExpenseLedger.DeleteKeepsIdsDistinct | java/ExpenseTracker/src/main/java/com/azvtech/ExpenseTracker.java:354-360 | a delete keeps ids distinct, and no expense with the deleted id is left |
| ExpenseLedger.DeleteTwice | java/ExpenseTracker/src/main/java/com/azvtech/ExpenseTracker.java:354-358 | deleting the same id twice removes one expense, then reports it not found and changes nothing |
| ExpenseLedger.SelectMonth | java/ExpenseTracker/src/main/java/com/azvtech/ExpenseTracker.java:443-445 | exactly the expenses dated in that month of any year, each with as many copies as the list holds, in their order in the list |
| ExpenseLedger.MonthSummaryOf | java/ExpenseTracker/src/main/java/com/azvtech/ExpenseTracker.java:441-457 | aborts exactly for a month outside 1-12; reports "none" exactly when no expense falls in the month; otherwise lists the month's expenses in order, each copy kept, with their total; a summary is given exactly when the month is 1-12 and some expense falls in it |
| ExpenseLedger.MonthlyTotal | java/ExpenseTracker/src/main/java/com/azvtech/ExpenseTracker.java:505-510 | a list whose expenses are all dated in the month totals the whole list; with `NoneInMonthTotalsZero` and `MonthlyTotalSnoc` this pins the month's total to the sum of the amounts dated in it |
| ExpenseLedger.NoneInMonthTotalsZero | java/ExpenseTracker/src/main/java/com/azvtech/ExpenseTracker.java:505-510 | a month in which no expense is dated totals 0 |
| ExpenseLedger.MonthlyTotalSnoc | java/ExpenseTracker/src/main/java/com/azvtech/ExpenseTracker.java:505-510 | appending an expense changes only its own month's total, by its amount |
| ExpenseLedger.MonthsTotalSnoc | java/ExpenseTracker/src/main/java/com/azvtech/ExpenseTracker.java:505-510 | appending an expense raises the sum of months 1..k by its amount exactly when its month is among them |
| ExpenseLedger.MonthsPartitionTotal | java/ExpenseTracker/src/main/java/com/azvtech/ExpenseTracker.java:505-510 | the twelve monthly totals add up to the total of all expenses |
| ExpenseLedger.FilterByCategory | java/ExpenseTracker/src/main/java/com/azvtech/ExpenseTracker.java:470-485 | an invalid token gives an error and no list (no fallback to `Other`); a valid one lists exactly that category's expenses, each copy kept, in order |
| ExpenseLedger.FilterIgnoresCase | java/ExpenseTracker/src/main/java/com/azvtech/ExpenseTracker.java:474 | the lower-case and the upper-case name of a category filter alike, and both are valid |
| ExpenseLedger.SetMonthlyBudget | java/ExpenseTracker/src/main/java/com/azvtech/ExpenseTracker.java:495-497 | sets one month's budget; the set of months with a budget gains only that month, and other months keep their budgets |
| ExpenseLedger.BudgetExceeded | java/ExpenseTracker/src/main/java/com/azvtech/ExpenseTracker.java:521-526 | no budget is never exceeded; a total equal to the budget is not exceeded; only a total strictly above it is |
| ExpenseLedger.SetThenCheck | java/ExpenseTracker/src/main/java/com/azvtech/ExpenseTracker.java:495-526 | right after a month's budget is set, the month is exceeded exactly when its total is above the new budget |
| ExpenseLedger.SetOtherMonth | java/ExpenseTracker/src/main/java/com/azvtech/ExpenseTracker.java:495-497 | setting another month's budget does not change whether a month is exceeded |
| ExpenseLedger.SetBudgetTwice | java/ExpenseTracker/src/main/java/com/azvtech/ExpenseTracker.java:495-497 | a second set of the same month replaces the first |
| ExpenseTracker.Run | java/ExpenseTracker/src/main/java/com/azvtech/ExpenseTracker.java:185-240 | help prints the usage and saves nothing; otherwise the run saves exactly when the request holds none of the throwing cases (an update with a malformed id or, once id and amount parse, an unknown category; a month summary outside 1-12; a budget whose month or amount does not parse), and what it saves is the loaded list with the requested add, update and delete applied in turn by the ledger operations |
| ExpenseTracker.HaltsIffAborts | java/ExpenseTracker/src/main/java/com/azvtech/ExpenseTracker.java:199-236 | the run's steps halt exactly when the request holds one of the throwing cases, whatever the loaded list |
| ExpenseTracker.SummaryReported | java/ExpenseTracker/src/main/java/com/azvtech/ExpenseTracker.java:213-215 | in a run that reaches the save, a requested summary reports the total of the list after add, update and delete |
| ExpenseTracker.ListAllReported | java/ExpenseTracker/src/main/java/com/azvtech/ExpenseTracker.java:217-219 | in a run that reaches the save, a requested listing lists the list after add, update and delete |
| ExpenseTracker.MonthSummaryReported | java/ExpenseTracker/src/main/java/com/azvtech/ExpenseTracker.java:221-223 | in a run that reaches the save, a requested month summary is computed on the list after add, update and delete |
| ExpenseTracker.CategoryFilterReported | java/ExpenseTracker/src/main/java/com/azvtech/ExpenseTracker.java:225-228 | in a run that reaches the save, a requested category filter is applied to the list after add, update and delete |
| ExpenseTracker.MutationsFollowLedger | java/ExpenseTracker/src/main/java/com/azvtech/ExpenseTracker.java:199-211 | when add, update and delete do not halt the run, the list they leave is the one the ledger operations compute from the loaded list |
| ExpenseTracker.MonthOutOfRangeAborts | java/ExpenseTracker/src/main/java/com/azvtech/ExpenseTracker.java:221-223 | a `--month-summary` month outside 1-12 always ends the run with an abort and no save |
| ExpenseTracker.BadBudgetAborts | java/ExpenseTracker/src/main/java/com/azvtech/ExpenseTracker.java:230-232 | a `--set-budget` month name or amount that does not parse always ends the run with an abort and no save |
| ExpenseTracker.DoSetBudget | java/ExpenseTracker/src/main/java/com/azvtech/ExpenseTracker.java:230-234 | an unparsable month or amount aborts with the budgets unchanged; otherwise that month's cap is set to the amount, the other months' caps are kept, and the budget is reported as set; the expense list never changes |
| ExpenseTracker.DoCheckBudget | java/ExpenseTracker/src/main/java/com/azvtech/ExpenseTracker.java:521-526 | appends a warning for the month exactly when the run is still going, the month has a cap, and the month's total is strictly above it; nothing else changes |
| ExpenseTracker.HaltedIffAborted | java/ExpenseTracker/src/main/java/com/azvtech/ExpenseTracker.java:199-240 | through the fixed sequence of operations, the run is stopped exactly when an abort has been reported |
| ExpenseTracker.QueriesKeepExpenses | java/ExpenseTracker/src/main/java/com/azvtech/ExpenseTracker.java:213-238 | summary, list, month summary, category filter, set budget and the budget check never change the expense list |
| ExpenseTracker.RunKeepsIdsDistinct | java/ExpenseTracker/src/main/java/com/azvtech/ExpenseTracker.java:199-240 | distinct loaded ids and a new fresh id give a saved list with distinct ids |
| ExpenseTracker.QueryRunSavesSnapshot | java/ExpenseTracker/src/main/java/com/azvtech/ExpenseTracker.java:199-240 | a run with no add, update or delete saves back exactly the list it loaded |
| ExpenseTracker.BudgetsUntouchedBeforeSet | java/ExpenseTracker/src/main/java/com/azvtech/ExpenseTracker.java:174 | no operation before `--set-budget` touches the budget map |
| ExpenseTracker.NoBudgetNoWarning | java/ExpenseTracker/src/main/java/com/azvtech/ExpenseTracker.java:174 | budgets start empty on every run, so a run that sets none never warns |
| ExpenseTracker.BudgetWarningOnlyFromCheck | java/ExpenseTracker/src/main/java/com/azvtech/ExpenseTracker.java:201-235 | only the final budget check can produce a budget warning |
| ExpenseTracker.UpdateCategoryTypoSavesNothing | java/ExpenseTracker/src/main/java/com/azvtech/ExpenseTracker.java:309 | an unknown category in `--update` aborts the run and nothing is saved, so an add earlier in the same run is lost |
| ExpenseTracker.HaltedStaysHalted | java/ExpenseTracker/src/main/java/com/azvtech/ExpenseTracker.java:185-248 | after an abort, no later operation runs or reports |
| ExpenseTracker.AddThenSummary | java/ExpenseTracker/src/main/java/com/azvtech/ExpenseTracker.java:201-215 | with add and summary in one run, the reported total is the loaded total plus the new amount |
| ExpenseTracker.SummaryAfterAdd | java/ExpenseTracker/src/main/java/com/azvtech/ExpenseTracker.java:416-428 | the summary right after an add reports the loaded total plus the new amount |
| ExpenseTracker.ReportsOnlyGrow | java/ExpenseTracker/src/main/java/com/azvtech/ExpenseTracker.java:217-238 | the operations after the summary only add reports after the earlier ones |
| ExpenseTracker.SetBudgetThenWarn | java/ExpenseTracker/src/main/java/com/azvtech/ExpenseTracker.java:230-238 | in any run that sets the current month's budget, the warning appears exactly when the run reaches the save and the month's total over the saved list is above the cap |
| TaskTracker.FindTask | java/TaskTracker/src/main/java/com/fajdev/TaskTracker/TaskTracker.java:89-97 | the index of the first task with the id; none exactly when no task has it |
| TaskTracker.AddTask | java/TaskTracker/src/main/java/com/fajdev/TaskTracker/TaskTracker.java:70-82 | exactly one task is appended, with the fresh id, the name, status "not done", and equal creation and update stamps |
| TaskTracker.UpdateTaskStatus | java/TaskTracker/src/main/java/com/fajdev/TaskTracker/TaskTracker.java:85-105 | not found exactly when no task has the id; otherwise only the first task with the id gets the new status (any string) and update stamp, and every other task is unchanged |
| TaskTracker.DeleteTask | java/TaskTracker/src/main/java/com/fajdev/TaskTracker/TaskTracker.java:108-127 | not found exactly when no task has the id; otherwise only the first task with the id is removed, so the list is one shorter and the others keep their order |
| TaskTracker.ListTasks | java/TaskTracker/src/main/java/com/fajdev/TaskTracker/TaskTracker.java:130-147 | a task is listed exactly when it is stored and the filter is "all" or equals its status |
| TaskTracker.ListTasksOrder | java/TaskTracker/src/main/java/com/fajdev/TaskTracker/TaskTracker.java:134-146 | the listing keeps the stored order and every copy of a listed task |
| TaskTracker.ListAllIsEverything | java/TaskTracker/src/main/java/com/fajdev/TaskTracker/TaskTracker.java:138 | "all" lists every task in stored order |
| TaskTracker.AddThenList | java/TaskTracker/src/main/java/com/fajdev/TaskTracker/TaskTracker.java:70-82 | a new task is listed last under "all" and under "not done" |
| TaskTracker.AddKeepsTaskIdsDistinct | java/TaskTracker/src/main/java/com/fajdev/TaskTracker/TaskTracker.java:73 | adding under an id no task has keeps ids distinct |
| TaskTracker.DeleteUndoesAdd | java/TaskTracker/src/main/java/com/fajdev/TaskTracker/TaskTracker.java:108-127 | deleting a just-added task by its fresh id gives back the list before the add |
| TaskTracker.UpdateKeepsTaskIds | java/TaskTracker/src/main/java/com/fajdev/TaskTracker/TaskTracker.java:91-94 | a status update keeps the length and every id in its place |
| TaskTracker.UpdateIdempotent | java/TaskTracker/src/main/java/com/fajdev/TaskTracker/TaskTracker.java:89-97 | repeating the same update at the same time changes nothing more |
| TaskTracker.DeleteTaskTwice | java/TaskTracker/src/main/java/com/fajdev/TaskTracker/TaskTracker.java:112-126 | with distinct ids, a second delete of the same id finds nothing |
| TaskTracker.Main | java/TaskTracker/src/main/java/com/fajdev/TaskTracker/TaskTracker.java:23-67 | exactly one reply; no arguments or an unknown command print their messages and save nothing; only add, update and delete with an id and name can save; `add` saves the list with the new task; `update` and `delete` save the list the task operation returns and, for a stored id, print the update or delete message; `list <filter>` replies with the filtered listing; the reply is a listing exactly for `list` |
| TaskTracker.MainSavesIff | java/TaskTracker/src/main/java/com/fajdev/TaskTracker/TaskTracker.java:32-54 | the list is saved exactly for `add` with a name, or for `update`/`delete` with enough arguments and an id that is stored |
| TaskTracker.MissingArguments | java/TaskTracker/src/main/java/com/fajdev/TaskTracker/TaskTracker.java:32-54 | `add` below 2 arguments, `update` below 3 and `delete` below 2 print their usage line and save nothing |
| TaskTracker.UnknownIdNotFound | java/TaskTracker/src/main/java/com/fajdev/TaskTracker/TaskTracker.java:99-104 | an update with an id and status, or a delete with an id, of an id that is not stored prints "Task not found." and saves nothing |
| TaskTracker.MainAdd | java/TaskTracker/src/main/java/com/fajdev/TaskTracker/TaskTracker.java:32-38 | `add <name>` prints "Task added: " with the name and saves the list with the new task last |
| TaskTracker.MainListAll | java/TaskTracker/src/main/java/com/fajdev/TaskTracker/TaskTracker.java:56-62 | `list` with no filter lists every task and saves nothing |
| TaskTracker.PinnedMessages | java/TaskTracker/src/test/java/com/fajdev/TaskTracker/TaskTrackerTest.java:75-199 | the exact messages the tests expect for no arguments, `add`, `update`, `update 123`, `delete` and `invalid` |

## Left out

- Loading and saving the JSON files is left out. That covers `loadExpenses` and `saveExpenses` (Gson) and `loadTasks` and `saveTasks` (org.json). The loaded list is a parameter, and a save is the `saved` field of the outcome. A failed load is not modelled: TaskTracker prints an error and continues with an empty list.
- JCommander is left out: command-line parsing, `ParameterException`, the usage text, and argument arity. A run starts from the already-parsed `Request`.
- `Double.parseDouble`, `double` arithmetic and the `%.2f` formatting are left out. Amounts are exact integer cents, so rounding in the Java sums is not modelled.
- Which strings `UUID.fromString` and `Double.parseDouble` accept is left out, because that belongs to the JDK. The outcome of the parse is an input instead.
- `Month.valueOf` on the `--set-budget` month name is left out. The parsed month, or its failure, is an input.
- The clock and UUID generation are parameters, not calls. TaskTracker reads `LocalDateTime.now()` once, into a static field, so one `now` serves the whole call.
- Console text is left out, apart from TaskTracker's messages that the tests pin. What each operation prints is a `Report` or `Reply` value, not formatted text.
- Expenses.ParseCategory: `toUpperCase` is modelled for a non-Turkish default locale. Under a Turkish locale `i` upper-cases to `İ`, so a token such as `utilities` would not parse there; the model does not cover that. Besides the ASCII letters, only the characters that upper-case to an ASCII letter (`ı` and `ſ`) are mapped; upper-casing that expands one character into several (`ß`, ligatures) is not modelled, and none of it yields a category name.
- ExpenseTracker.Run: a single `today` stands for both clock reads, the one that dates a new expense (Expense.java:16) and the one that picks the month to check the budget for (ExpenseTracker.java:238). A run that crosses midnight at the end of a month can, in the source, date the new expense in one month and check the next; the model does not cover that.
- The two-argument `Expense` constructor, which sets no category, is left out. The tracker never calls it.
- `Expense.toString`, the getters, and the `Listing` output text are left out, apart from the fields they return.
- GitHubUserActivity is left out. It is an HTTP client and a prompt, with no logic to model.
- LocalDateAdapter.WriteRead: proved for `YYYY-MM-DD` strings, which are years 0 to 9999. For signed years, only `ReadWrite` is proved.

=== FILE: digits.dfy ===
/** Decimal digit strings: reading them as numbers and writing numbers at a fixed width. */
module Digits {

  predicate IsDigit(c: char) {
    '0' <= c <= '9'
  }

  predicate AllDigits(s: string) {
    forall i :: 0 <= i < |s| ==> IsDigit(s[i])
  }

  function DigitChar(d: nat): (c: char)
    requires d < 10
    ensures IsDigit(c)
  {
    (('0' as int) + d) as char
  }

  function DigitValue(c: char): (d: nat)
    requires IsDigit(c)
    ensures d < 10 && DigitChar(d) == c
  {
    (c as int) - ('0' as int)
  }

  function Pow10(n: nat): (r: nat)
    ensures r >= 1
  {
    if n == 0 then 1 else 10 * Pow10(n - 1)
  }

  lemma Pow10Nine()
    ensures Pow10(9) == 1_000_000_000
  {
  }

  /** The number a digit string denotes, most significant digit first. */
  function Value(s: string): (v: nat)
    requires AllDigits(s)
    ensures v < Pow10(|s|)
  {
    if |s| == 0 then 0
    else 10 * Value(s[..|s| - 1]) + DigitValue(s[|s| - 1])
  }

  /** The low `w` decimal digits of `n`, zero-padded on the left. */
  function Fixed(n: nat, w: nat): (s: string)
    ensures |s| == w && AllDigits(s)
  {
    if w == 0 then [] else Fixed(n / 10, w - 1) + [DigitChar(n % 10)]
  }

  /** The number of digits in the shortest decimal form of `n`. */
  function Width(n: nat): (w: nat)
    ensures 1 <= w && n < Pow10(w)
  {
    if n < 10 then 1 else 1 + Width(n / 10)
  }

  /** `n` in decimal, zero-padded on the left to at least `w` digits. */
  function Padded(n: nat, w: nat): (s: string)
    ensures AllDigits(s) && |s| >= w
  {
    Fixed(n, if w < Width(n) then Width(n) else w)
  }

  lemma {:induction false} WidthAtMost(n: nat, k: nat)
    requires n < Pow10(k) && 1 <= k
    ensures Width(n) <= k
    decreases k
  {
    if n >= 10 {
      assert k > 1;
      WidthAtMost(n / 10, k - 1);
    }
  }

  lemma {:induction false} WidthAbove(n: nat, k: nat)
    requires Pow10(k) <= n
    ensures k < Width(n)
    decreases k
  {
    if k > 0 {
      WidthAbove(n / 10, k - 1);
    }
  }

  /** Writing `n` at a width it fits in and reading it back gives `n`. */
  lemma {:induction false} ValueOfFixed(n: nat, w: nat)
    requires n < Pow10(w)
    ensures Value(Fixed(n, w)) == n
    decreases w
  {
    if w > 0 {
      var s := Fixed(n, w);
      assert s[..w - 1] == Fixed(n / 10, w - 1);
      ValueOfFixed(n / 10, w - 1);
    }
  }

  /** Reading a digit string and writing it back at its own width gives it back. */
  lemma {:induction false} FixedOfValue(s: string)
    requires AllDigits(s)
    ensures Fixed(Value(s), |s|) == s
    decreases |s|
  {
    if |s| > 0 {
      var init := s[..|s| - 1];
      var v := Value(s);
      assert v / 10 == Value(init);
      assert v % 10 == DigitValue(s[|s| - 1]);
      FixedOfValue(init);
      assert s == init + [s[|s| - 1]];
    }
  }

  /** The padded form of `n` reads back as `n`. */
  lemma ValueOfPadded(n: nat, w: nat)
    ensures Value(Padded(n, w)) == n
  {
    var k := if w < Width(n) then Width(n) else w;
    Pow10Monotone(Width(n), k);
    ValueOfFixed(n, k);
  }

  lemma {:induction false} Pow10Monotone(a: nat, b: nat)
    requires a <= b
    ensures Pow10(a) <= Pow10(b)
    decreases b
  {
    if a < b {
      Pow10Monotone(a, b - 1);
    }
  }
}

=== FILE: expense.dfy ===
/**
 One recorded expense (`Expense.java`, with the `category` field the tracker
 uses) and the `ExpenseCategory` tokens the tracker parses.
 */
module Expenses {
  import opened Wrappers
  import opened LocalDateAdapter

  /** A monetary amount in cents; Java holds it as a `double`. */
  type Cents = int

  /** A `java.util.UUID`: equal exactly when both 64-bit halves are equal. */
  datatype Uuid = Uuid(mostSigBits: bv64, leastSigBits: bv64)

  /** `ExpenseCategory`; `Other` is the fallback `add` uses. */
  datatype Category = Food | Transport | Entertainment | Utilities | Health | Other

  /** The enum constant's name, the only spelling `valueOf` accepts. */
  function Name(c: Category): string {
    match c
    case Food => "FOOD"
    case Transport => "TRANSPORT"
    case Entertainment => "ENTERTAINMENT"
    case Utilities => "UTILITIES"
    case Health => "HEALTH"
    case Other => "OTHER"
  }

  /**
   `Character.toUpperCase` where the result is an ASCII letter: `a`-`z`, the
   dotless `ı` (U+0131, to `I`) and the long `ſ` (U+017F, to `S`). Every other
   character is kept; none of them upper-cases to a letter of a category name.
   */
  function UpperChar(c: char): char {
    if 'a' <= c <= 'z' then (c as int - 32) as char
    else if c == '\U{0131}' then 'I'
    else if c == '\U{017F}' then 'S'
    else c
  }

  function LowerChar(c: char): char {
    if 'A' <= c <= 'Z' then (c as int + 32) as char else c
  }

  /** `String.toUpperCase`, one character at a time by `UpperChar`. */
  function ToUpper(s: string): (r: string)
    ensures |r| == |s| && forall i :: 0 <= i < |s| ==> r[i] == UpperChar(s[i])
  {
    seq(|s|, i requires 0 <= i < |s| => UpperChar(s[i]))
  }

  function ToLower(s: string): (r: string)
    ensures |r| == |s| && forall i :: 0 <= i < |s| ==> r[i] == LowerChar(s[i])
  {
    seq(|s|, i requires 0 <= i < |s| => LowerChar(s[i]))
  }

  /**
   `ExpenseCategory.valueOf(token.toUpperCase())`: the category whose name is the
   upper-cased token, or `None` where Java throws `IllegalArgumentException`.
   */
  function ParseCategory(token: string): (r: Option<Category>)
    ensures forall c :: r == Some(c) <==> Name(c) == ToUpper(token)
  {
    var u := ToUpper(token);
    if u == "FOOD" then Some(Food)
    else if u == "TRANSPORT" then Some(Transport)
    else if u == "ENTERTAINMENT" then Some(Entertainment)
    else if u == "UTILITIES" then Some(Utilities)
    else if u == "HEALTH" then Some(Health)
    else if u == "OTHER" then Some(Other)
    else None
  }

  /** A category's name, in any mix of letter cases, parses to that category. */
  lemma ParseCategoryAnyCase(c: Category, token: string)
    requires |token| == |Name(c)|
    requires forall i :: 0 <= i < |token| ==> token[i] == Name(c)[i] || token[i] == LowerChar(Name(c)[i])
    ensures ParseCategory(token) == Some(c)
  {
    var u := ToUpper(token);
    forall i | 0 <= i < |token|
      ensures u[i] == Name(c)[i]
    {
      assert 'A' <= Name(c)[i] <= 'Z';
    }
    assert u == Name(c);
  }

  /** Upper-casing also turns the dotless `ı` into `I` and the long `ſ` into `S`. */
  lemma ParseNonAsciiLetters(token: string)
    requires token in ["entertainment", "enterta\U{0131}nment", "tran\U{017F}port", "TRAN\U{017F}PORT"]
    ensures ParseCategory(token) == (if token[0] == 'e' then Some(Entertainment) else Some(Transport))
  {
    var u := ToUpper(token);
    if token[0] == 'e' {
      assert u == "ENTERTAINMENT";
    } else {
      assert u == "TRANSPORT";
    }
  }

  /** The lower-case spelling of every category is accepted. */
  lemma ParseLowerName(c: Category)
    ensures ParseCategory(ToLower(Name(c))) == Some(c)
  {
    ParseCategoryAnyCase(c, ToLower(Name(c)));
  }

  /** One expense: `id` is fixed at construction; the other fields can change. */
  datatype Expense = Expense(id: Uuid, amount: Cents, description: string, date: Date, category: Category)

  /**
   The tracker's three-argument constructor: a fresh `id` (from
   `UUID.randomUUID`, here a parameter) and `today` (from `LocalDate.now`).
   */
  function NewExpense(id: Uuid, amount: Cents, description: string, category: Category, today: Date): (e: Expense)
    ensures e.id == id && e.amount == amount && e.description == description
    ensures e.category == category && e.date == today
  {
    Expense(id, amount, description, today, category)
  }

  function SetAmount(e: Expense, amount: Cents): (r: Expense)
    ensures r.amount == amount
    ensures r.id == e.id && r.description == e.description && r.date == e.date && r.category == e.category
  {
    e.(amount := amount)
  }

  function SetDescription(e: Expense, description: string): (r: Expense)
    ensures r.description == description
    ensures r.id == e.id && r.amount == e.amount && r.date == e.date && r.category == e.category
  {
    e.(description := description)
  }

  function SetDate(e: Expense, date: Date): (r: Expense)
    ensures r.date == date
    ensures r.id == e.id && r.amount == e.amount && r.description == e.description && r.category == e.category
  {
    e.(date := date)
  }

  function SetCategory(e: Expense, category: Category): (r: Expense)
    ensures r.category == category
    ensures r.id == e.id && r.amount == e.amount && r.description == e.description && r.date == e.date
  {
    e.(category := category)
  }

  /** A call of one of the setters. */
  datatype Mutation =
    | AmountSet(amount: Cents)
    | DescriptionSet(description: string)
    | DateSet(date: Date)
    | CategorySet(category: Category)

  function Apply(e: Expense, m: Mutation): Expense {
    match m
    case AmountSet(a) => SetAmount(e, a)
    case DescriptionSet(d) => SetDescription(e, d)
    case DateSet(d) => SetDate(e, d)
    case CategorySet(c) => SetCategory(e, c)
  }

  /** Applies the setter calls in order. */
  function ApplyAll(e: Expense, ms: seq<Mutation>): Expense
    decreases |ms|
  {
    if |ms| == 0 then e else ApplyAll(Apply(e, ms[0]), ms[1..])
  }

  /** No sequence of setter calls changes an expense's id. */
  lemma {:induction false} IdIsFinal(e: Expense, ms: seq<Mutation>)
    ensures ApplyAll(e, ms).id == e.id
    decreases |ms|
  {
    if |ms| > 0 {
      IdIsFinal(Apply(e, ms[0]), ms[1..]);
    }
  }
}

=== FILE: ledger.dfy ===
/**
 The operations of `ExpenseTracker.java` on one loaded snapshot: the expense
 list (insertion order) and the month-to-budget map. Each operation takes the
 snapshot and its already-tokenised arguments and returns the new expense list
 with a report of what the tool would print.
 */
module ExpenseLedger {
  import opened Wrappers
  import opened Seqs
  import opened LocalDateAdapter
  import opened Expenses

  /** `java.time.Month`, numbered 1 (January) to 12 (December). */
  type Month = m: int | 1 <= m <= 12 witness 1

  /**
   What `UUID.fromString` made of an id token: an id, a `NumberFormatException`
   (a field that is not hexadecimal), or another `IllegalArgumentException`
   (wrong length or dash count). Which strings fall into which case is up to
   the JDK, so it is an input here.
   */
  datatype IdParse = ValidId(id: Uuid) | BadDigits | BadShape

  /** What one operation reports. `Aborted` is an exception nothing catches. */
  datatype Report =
    | Added(expense: Expense, categoryDefaulted: bool)
    | InvalidAmount
    | Updated(expense: Expense)
    | InvalidUpdateFormat
    | NotFound(id: Uuid)
    | Deleted(expense: Expense)
    | InvalidId
    | NoExpenses
    | Summary(total: Cents)
    | NoRecordedExpenses
    | Listing(expenses: seq<Expense>)
    | NoExpensesForMonth(month: Month)
    | MonthSummary(month: Month, expenses: seq<Expense>, total: Cents)
    | InvalidCategoryFilter
    | Filtered(category: Category, expenses: seq<Expense>)
    | BudgetSet(month: Month, amount: Cents)
    | BudgetWarning(month: Month)
    | Usage
    | Aborted

  /** The expense list after an operation, and its report. */
  datatype Step = Step(expenses: seq<Expense>, report: Report)

  predicate DistinctIds(es: seq<Expense>) {
    forall i, j :: 0 <= i < j < |es| ==> es[i].id != es[j].id
  }

  predicate HasId(es: seq<Expense>, id: Uuid) {
    exists i :: 0 <= i < |es| && es[i].id == id
  }

  // ---------------------------------------------------------------- lookup

  /** `findExpenseById`: the position of the first expense with this id. */
  function FindById(es: seq<Expense>, id: Uuid): (r: Option<nat>)
    ensures r.Some? ==> r.value < |es| && es[r.value].id == id
    ensures r.Some? ==> forall j :: 0 <= j < r.value ==> es[j].id != id
    ensures r.None? <==> !HasId(es, id)
  {
    FindFirst(es, (e: Expense) => e.id == id)
  }

  // ---------------------------------------------------------------- add

  /**
   `addNewExpense`. An unparseable amount adds nothing. Otherwise one expense
   with the fresh id, the amount, the description and today's date is appended;
   the category token is upper-cased and an unknown one becomes `Other`.
   */
  function AddExpense(es: seq<Expense>, amount: Option<Cents>, description: string, categoryToken: string,
                      freshId: Uuid, today: Date): (r: Step)
    ensures amount.None? ==> r == Step(es, InvalidAmount)
    ensures amount.Some? ==> r.report.Added? && r.expenses == es + [r.report.expense]
    ensures amount.Some? ==>
      var e := r.report.expense;
      e.id == freshId && e.amount == amount.value && e.description == description && e.date == today
    ensures amount.Some? ==> forall c :: ParseCategory(categoryToken) == Some(c) ==> r.report.expense.category == c
    ensures amount.Some? ==> (r.report.categoryDefaulted <==> ParseCategory(categoryToken).None?)
    ensures amount.Some? && ParseCategory(categoryToken).None? ==> r.report.expense.category == Other
  {
    match amount
    case None => Step(es, InvalidAmount)
    case Some(a) =>
      var category := ParseCategory(categoryToken);
      var e := NewExpense(freshId, a, description, category.GetOr(Other), today);
      Step(es + [e], Added(e, category.None?))
  }

  // ---------------------------------------------------------------- update

  /**
   `updateExpense`. All three tokens are parsed before anything is looked up or
   set. A `NumberFormatException` (id digits or amount) is caught and reported;
   any other `IllegalArgumentException` (id shape, or an unknown category) is
   not caught and ends the run. An absent id is reported as not found.
   */
  function UpdateExpense(es: seq<Expense>, id: IdParse, amount: Option<Cents>, description: string,
                         categoryToken: string): (r: Step)
    ensures !r.report.Updated? ==> r.expenses == es
    ensures r.report.Aborted? <==>
      id.BadShape? || (id.ValidId? && amount.Some? && ParseCategory(categoryToken).None?)
    ensures r.report.InvalidUpdateFormat? <==> id.BadDigits? || (id.ValidId? && amount.None?)
    ensures r.report.NotFound? <==>
      id.ValidId? && amount.Some? && ParseCategory(categoryToken).Some? && !HasId(es, id.id)
    ensures r.report.Updated? <==>
      id.ValidId? && amount.Some? && ParseCategory(categoryToken).Some? && HasId(es, id.id)
    ensures r.report.Updated? ==>
      && id.ValidId? && amount.Some? && ParseCategory(categoryToken).Some?
      && FindById(es, id.id).Some?
      && var i := FindById(es, id.id).value;
      && |r.expenses| == |es|
      && (forall j :: 0 <= j < |es| && j != i ==> r.expenses[j] == es[j])
      && r.expenses[i] == r.report.expense
      && r.report.expense.id == es[i].id && r.report.expense.date == es[i].date
      && r.report.expense.amount == amount.value
      && r.report.expense.description == description
      && r.report.expense.category == ParseCategory(categoryToken).value
  {
    match id
    case BadShape => Step(es, Aborted)
    case BadDigits => Step(es, InvalidUpdateFormat)
    case ValidId(uuid) =>
      match amount
      case None => Step(es, InvalidUpdateFormat)
      case Some(a) =>
        match ParseCategory(categoryToken)
        case None => Step(es, Aborted)
        case Some(c) =>
          match FindById(es, uuid)
          case None => Step(es, NotFound(uuid))
          case Some(i) =>
            var e := SetCategory(SetDescription(SetAmount(es[i], a), description), c);
            Step(es[i := e], Updated(e))
  }

  // ---------------------------------------------------------------- delete

  /**
   `deleteExpense`. A malformed id is reported (every `IllegalArgumentException`
   is caught here); an absent id is reported as not found; otherwise the first
   expense with that id is removed and the others keep their order.
   */
  function DeleteExpense(es: seq<Expense>, id: IdParse): (r: Step)
    ensures !id.ValidId? ==> r == Step(es, InvalidId)
    ensures id.ValidId? && !HasId(es, id.id) ==> r == Step(es, NotFound(id.id))
    ensures id.ValidId? && HasId(es, id.id) ==>
      && FindById(es, id.id).Some?
      && var i := FindById(es, id.id).value;
      && r.report == Deleted(es[i])
      && r.expenses == RemoveAt(es, i)
  {
    match id
    case ValidId(uuid) =>
      (match FindById(es, uuid)
       case None => Step(es, NotFound(uuid))
       case Some(i) => Step(RemoveAt(es, i), Deleted(es[i])))
    case _ => Step(es, InvalidId)
  }

  // ---------------------------------------------------------------- totals

  /** The sum of the amounts, accumulated in list order. */
  function Total(es: seq<Expense>): Cents {
    if |es| == 0 then 0 else Total(es[..|es| - 1]) + es[|es| - 1].amount
  }

  /**
   The accumulation loop of `showExpenseSummary`: walking the list and adding
   each amount yields the sum of all amounts.
   */
  method SumAmounts(es: seq<Expense>) returns (total: Cents)
    ensures total == Total(es)
  {
    total := 0;
    var i := 0;
    while i < |es|
      invariant 0 <= i <= |es|
      invariant total == Total(es[..i])
    {
      assert es[..i + 1][..i] == es[..i];
      total := total + es[i].amount;
      i := i + 1;
    }
    assert es[..|es|] == es;
  }

  /**
   `showExpenseSummary`: an empty list is the distinct "no expenses" report;
   otherwise the total of all amounts.
   */
  function ExpenseSummary(es: seq<Expense>): (r: Report)
    ensures r == NoExpenses <==> |es| == 0
    ensures r != NoExpenses ==> r == Summary(Total(es))
  {
    if |es| == 0 then NoExpenses else Summary(Total(es))
  }

  /** `listAllExpenses`: every expense, in order, or the "none recorded" report. */
  function ListAll(es: seq<Expense>): (r: Report)
    ensures r == NoRecordedExpenses <==> |es| == 0
    ensures r != NoRecordedExpenses ==> r == Listing(es)
  {
    if |es| == 0 then NoRecordedExpenses else Listing(es)
  }

  lemma {:induction false} TotalAppend(a: seq<Expense>, b: seq<Expense>)
    ensures Total(a + b) == Total(a) + Total(b)
    decreases |b|
  {
    if |b| == 0 {
      assert a + b == a;
    } else {
      var b' := b[..|b| - 1];
      assert (a + b)[..|a + b| - 1] == a + b';
      TotalAppend(a, b');
    }
  }

  lemma TotalConsSplit(es: seq<Expense>, i: nat)
    requires i < |es|
    ensures Total(es) == Total(es[..i]) + es[i].amount + Total(es[i + 1..])
  {
    assert es == es[..i] + [es[i]] + es[i + 1..];
    TotalAppend(es[..i] + [es[i]], es[i + 1..]);
    TotalAppend(es[..i], [es[i]]);
  }

  /** Adding one expense raises the total by its amount. */
  lemma AddRaisesTotal(es: seq<Expense>, amount: Cents, description: string, token: string,
                       id: Uuid, today: Date)
    ensures Total(AddExpense(es, Some(amount), description, token, id, today).expenses) == Total(es) + amount
  {
    var r := AddExpense(es, Some(amount), description, token, id, today);
    TotalAppend(es, [r.report.expense]);
  }

  /** Deleting removes exactly the deleted expense's amount from the total. */
  lemma DeleteLowersTotal(es: seq<Expense>, id: IdParse)
    ensures var r := DeleteExpense(es, id);
      Total(r.expenses) == Total(es) - (if r.report.Deleted? then r.report.expense.amount else 0)
  {
    var r := DeleteExpense(es, id);
    if r.report.Deleted? {
      var i := FindById(es, id.id).value;
      TotalConsSplit(es, i);
      TotalAppend(es[..i], es[i + 1..]);
    }
  }

  /** Updating replaces one amount in the total by the new amount. */
  lemma UpdateShiftsTotal(es: seq<Expense>, id: IdParse, amount: Option<Cents>, description: string, token: string)
    ensures var r := UpdateExpense(es, id, amount, description, token);
      r.report.Updated? ==>
        Total(r.expenses) == Total(es) - es[FindById(es, id.id).value].amount + amount.value
  {
    var r := UpdateExpense(es, id, amount, description, token);
    if r.report.Updated? {
      var i := FindById(es, id.id).value;
      TotalConsSplit(es, i);
      TotalConsSplit(r.expenses, i);
      assert r.expenses[..i] == es[..i];
      assert r.expenses[i + 1..] == es[i + 1..];
    }
  }

  // ---------------------------------------------------------------- identity

  /** Adding under an id no expense has keeps the ids distinct, and finds the new expense last. */
  lemma AddKeepsIdsDistinct(es: seq<Expense>, amount: Option<Cents>, description: string, token: string,
                            freshId: Uuid, today: Date)
    requires DistinctIds(es) && !HasId(es, freshId)
    ensures var r := AddExpense(es, amount, description, token, freshId, today);
      DistinctIds(r.expenses) && (amount.Some? ==> FindById(r.expenses, freshId) == Some(|es|))
  {
    var r := AddExpense(es, amount, description, token, freshId, today);
    if amount.Some? {
      var f := FindById(r.expenses, freshId);
      assert r.expenses[|es|].id == freshId;
      assert HasId(r.expenses, freshId);
    }
  }

  /** Update keeps every id where it was. */
  lemma UpdateKeepsIds(es: seq<Expense>, id: IdParse, amount: Option<Cents>, description: string, token: string)
    ensures var r := UpdateExpense(es, id, amount, description, token);
      |r.expenses| == |es| && forall j :: 0 <= j < |es| ==> r.expenses[j].id == es[j].id
  {
  }

  /** Delete keeps the ids distinct and, when they were distinct, leaves no expense with the deleted id. */
  lemma DeleteKeepsIdsDistinct(es: seq<Expense>, id: IdParse)
    requires DistinctIds(es)
    ensures var r := DeleteExpense(es, id);
      DistinctIds(r.expenses) && (id.ValidId? ==> !HasId(r.expenses, id.id))
  {
    var r := DeleteExpense(es, id);
    if id.ValidId? && HasId(es, id.id) {
      var i := FindById(es, id.id).value;
      forall k | 0 <= k < |r.expenses|
        ensures r.expenses[k].id != id.id
      {
        if k >= i {
          assert r.expenses[k] == es[k + 1];
        }
      }
    }
  }

  /** Deleting the same id twice removes one expense and then reports it not found. */
  lemma DeleteTwice(es: seq<Expense>, id: Uuid)
    requires DistinctIds(es) && HasId(es, id)
    ensures var first := DeleteExpense(es, ValidId(id));
      var second := DeleteExpense(first.expenses, ValidId(id));
      && first.report.Deleted? && |first.expenses| == |es| - 1
      && second == Step(first.expenses, NotFound(id))
  {
    DeleteKeepsIdsDistinct(es, ValidId(id));
  }

  // ---------------------------------------------------------------- months

  /** The expenses dated in month `m` of any year, in list order. */
  function SelectMonth(es: seq<Expense>, m: Month): (r: seq<Expense>)
    ensures forall e :: e in r <==> e in es && e.date.month == m
    ensures forall e :: multiset(r)[e] == if e.date.month == m then multiset(es)[e] else 0
    ensures IsSubsequence(r, es)
  {
    FilterMultiset(es, (e: Expense) => e.date.month == m);
    FilterSubsequence(es, (e: Expense) => e.date.month == m);
    Filter(es, (e: Expense) => e.date.month == m)
  }

  predicate NoneInMonth(es: seq<Expense>, m: Month) {
    forall i :: 0 <= i < |es| ==> es[i].date.month != m
  }

  predicate AllInMonth(es: seq<Expense>, m: Month) {
    forall i :: 0 <= i < |es| ==> es[i].date.month == m
  }

  /**
   `getMonthlyExpenses`: the amounts of the expenses dated in month `m`, of any
   year, added up.
   */
  function MonthlyTotal(es: seq<Expense>, m: Month): (r: Cents)
    ensures AllInMonth(es, m) ==> r == Total(es)
  {
    AllInMonthSelectsAll(es, m);
    Total(Filter(es, (e: Expense) => e.date.month == m))
  }

  /** Selecting month `m` from a list dated entirely in `m` keeps the whole list. */
  lemma AllInMonthSelectsAll(es: seq<Expense>, m: Month)
    ensures AllInMonth(es, m) ==> Filter(es, (e: Expense) => e.date.month == m) == es
  {
    if AllInMonth(es, m) {
      FilterAll(es, (e: Expense) => e.date.month == m);
    }
  }

  /** A month with no expenses in it totals 0. */
  lemma NoneInMonthTotalsZero(es: seq<Expense>, m: Month)
    requires NoneInMonth(es, m)
    ensures MonthlyTotal(es, m) == 0
  {
    FilterNone(es, (e: Expense) => e.date.month == m);
  }

  /**
   `showMonthSummary`. `Month.of` throws for a number outside 1..12 and nothing
   catches it. An empty selection is its own report; otherwise the selected
   expenses and their total.
   */
  function MonthSummaryOf(es: seq<Expense>, m: int): (r: Report)
    ensures r.Aborted? <==> !(1 <= m <= 12)
    ensures 1 <= m <= 12 ==>
      (r == NoExpensesForMonth(m) <==> forall i :: 0 <= i < |es| ==> es[i].date.month != m)
    ensures r.MonthSummary? <==> 1 <= m <= 12 && exists i :: 0 <= i < |es| && es[i].date.month == m
    ensures r.MonthSummary? ==>
      && r.month == m
      && (forall e :: e in r.expenses <==> e in es && e.date.month == m)
      && (forall e :: multiset(r.expenses)[e] == if e.date.month == m then multiset(es)[e] else 0)
      && IsSubsequence(r.expenses, es)
      && r.total == MonthlyTotal(es, m)
  {
    if !(1 <= m <= 12) then Aborted
    else
      var selected := SelectMonth(es, m);
      if |selected| == 0 then
        assert forall i :: 0 <= i < |es| ==> es[i] !in selected;
        NoExpensesForMonth(m)
      else
        assert selected[0] in es;
        MonthSummary(m, selected, Total(selected))
  }

  /** Appending an expense adds its amount to its own month's total only. */
  lemma MonthlyTotalSnoc(es: seq<Expense>, e: Expense, m: Month)
    ensures MonthlyTotal(es + [e], m) == MonthlyTotal(es, m) + (if e.date.month == m then e.amount else 0)
  {
    var p := (x: Expense) => x.date.month == m;
    FilterAppend(es, [e], p);
    TotalAppend(Filter(es, p), Filter([e], p));
    assert Filter([e], p) == (if p(e) then [e] else []) + Filter([], p);
  }

  /** The month totals 1..k added up. */
  function MonthsTotal(es: seq<Expense>, k: nat): Cents
    requires k <= 12
  {
    if k == 0 then 0 else MonthsTotal(es, k - 1) + MonthlyTotal(es, k)
  }

  lemma {:induction false} MonthsTotalSnoc(es: seq<Expense>, e: Expense, k: nat)
    requires k <= 12
    ensures MonthsTotal(es + [e], k) == MonthsTotal(es, k) + (if 1 <= e.date.month <= k then e.amount else 0)
    decreases k
  {
    if k > 0 {
      var before, after := MonthlyTotal(es, k), MonthlyTotal(es + [e], k);
      MonthsTotalSnoc(es, e, k - 1);
      MonthlyTotalSnoc(es, e, k);
      assert MonthsTotal(es + [e], k) == MonthsTotal(es + [e], k - 1) + after;
      assert MonthsTotal(es, k) == MonthsTotal(es, k - 1) + before;
    }
  }

  /**
   Month buckets partition the ledger: for valid dates, the twelve monthly
   totals add up to the total of all expenses, whatever the years.
   */
  lemma {:induction false} MonthsPartitionTotal(es: seq<Expense>)
    requires forall i :: 0 <= i < |es| ==> 1 <= es[i].date.month <= 12
    ensures MonthsTotal(es, 12) == Total(es)
    decreases |es|
  {
    if |es| == 0 {
      MonthsTotalEmpty(12);
    } else {
      var init := es[..|es| - 1];
      assert es == init + [es[|es| - 1]];
      MonthsPartitionTotal(init);
      MonthsTotalSnoc(init, es[|es| - 1], 12);
    }
  }

  lemma {:induction false} MonthsTotalEmpty(k: nat)
    requires k <= 12
    ensures MonthsTotal([], k) == 0
    decreases k
  {
    if k > 0 {
      MonthsTotalEmpty(k - 1);
      assert SelectMonth([], k) == [];
    }
  }

  // ---------------------------------------------------------------- categories

  /**
   `filterExpensesByCategory`: the token is upper-cased and must name a
   category exactly; an unknown token is reported and selects nothing (no
   fallback to `Other`). A known one selects exactly that category's expenses,
   in order.
   */
  function FilterByCategory(es: seq<Expense>, token: string): (r: Report)
    ensures r == InvalidCategoryFilter <==> ParseCategory(token).None?
    ensures r != InvalidCategoryFilter ==>
      && r.Filtered?
      && Some(r.category) == ParseCategory(token)
      && (forall e :: e in r.expenses <==> e in es && e.category == r.category)
      && (forall e :: multiset(r.expenses)[e] == if e.category == r.category then multiset(es)[e] else 0)
      && IsSubsequence(r.expenses, es)
  {
    match ParseCategory(token)
    case None => InvalidCategoryFilter
    case Some(c) =>
      FilterSubsequence(es, (e: Expense) => e.category == c);
      FilterMultiset(es, (e: Expense) => e.category == c);
      Filtered(c, Filter(es, (e: Expense) => e.category == c))
  }

  /** The filter gives the same answer for a category's name in either case. */
  lemma FilterIgnoresCase(es: seq<Expense>, c: Category)
    ensures FilterByCategory(es, ToLower(Name(c))) == FilterByCategory(es, Name(c))
    ensures FilterByCategory(es, Name(c)).Filtered?
  {
    ParseLowerName(c);
    ParseCategoryAnyCase(c, Name(c));
  }

  // ---------------------------------------------------------------- budgets

  /** `setMonthlyBudget`: one month's budget is set or replaced; the others stay. */
  function SetMonthlyBudget(budgets: map<Month, Cents>, m: Month, amount: Cents): (r: map<Month, Cents>)
    ensures m in r && r[m] == amount
    ensures r.Keys == budgets.Keys + {m}
    ensures forall k :: k in budgets && k != m ==> r[k] == budgets[k]
  {
    budgets[m := amount]
  }

  /**
   `checkBudget`: the warning is given only for a month that has a budget, and
   only when that month's total is strictly above it.
   */
  function BudgetExceeded(es: seq<Expense>, budgets: map<Month, Cents>, m: Month): (r: bool)
    ensures m !in budgets ==> !r
    ensures m in budgets && MonthlyTotal(es, m) <= budgets[m] ==> !r
    ensures m in budgets && MonthlyTotal(es, m) > budgets[m] ==> r
  {
    m in budgets && MonthlyTotal(es, m) > budgets[m]
  }

  /** After setting month `m`'s budget, `m` is exceeded exactly when its total is above the new cap. */
  lemma SetThenCheck(es: seq<Expense>, budgets: map<Month, Cents>, m: Month, amount: Cents)
    ensures BudgetExceeded(es, SetMonthlyBudget(budgets, m, amount), m) <==> MonthlyTotal(es, m) > amount
    ensures BudgetExceeded(es, SetMonthlyBudget(budgets, m, MonthlyTotal(es, m)), m) == false
  {
  }

  /** Setting another month's budget does not change whether `m` is exceeded. */
  lemma SetOtherMonth(es: seq<Expense>, budgets: map<Month, Cents>, m: Month, k: Month, amount: Cents)
    requires k != m
    ensures BudgetExceeded(es, SetMonthlyBudget(budgets, k, amount), m) == BudgetExceeded(es, budgets, m)
  {
  }

  /** Setting a month's budget twice keeps only the second value. */
  lemma SetBudgetTwice(budgets: map<Month, Cents>, m: Month, a: Cents, b: Cents)
    ensures SetMonthlyBudget(SetMonthlyBudget(budgets, m, a), m, b) == SetMonthlyBudget(budgets, m, b)
  {
  }
}

=== FILE: local_date.dfy ===
/**
 The persisted text form of a calendar date: `java.time.LocalDate` written and
 read with `DateTimeFormatter.ISO_LOCAL_DATE` (strict). For years 0 to 9999 this
 is the `full-date` production of section 5.6 of RFC 3339, `YYYY-MM-DD`. Other
 years carry a sign: `+` for years above 9999 (as many digits as needed) and
 `-` for years below 0 (at least four digits).
 */
module LocalDateAdapter {
  import opened Wrappers
  import opened Digits

  /** A proleptic-Gregorian calendar date, as `LocalDate` holds it. */
  datatype Date = Date(year: int, month: int, day: int)

  /** The year range of `java.time.Year`. */
  const MinYear := -999_999_999
  const MaxYear := 999_999_999

  predicate IsLeapYear(year: int) {
    year % 4 == 0 && (year % 100 != 0 || year % 400 == 0)
  }

  function DaysInMonth(year: int, month: int): (n: int)
    requires 1 <= month <= 12
    ensures 28 <= n <= 31
  {
    if month == 2 then (if IsLeapYear(year) then 29 else 28)
    else if month == 4 || month == 6 || month == 9 || month == 11 then 30
    else 31
  }

  /** The dates `LocalDate` can represent. */
  predicate IsValid(d: Date) {
    && MinYear <= d.year <= MaxYear
    && 1 <= d.month <= 12
    && 1 <= d.day <= DaysInMonth(d.year, d.month)
  }

  /** The year field: four digits for 0..9999, otherwise signed. */
  function YearText(year: int): (s: string)
    requires MinYear <= year <= MaxYear
  {
    if 0 <= year <= 9999 then Fixed(year, 4)
    else if year > 9999 then "+" + Padded(year, 4)
    else "-" + Padded(-year, 4)
  }

  /** `LocalDateAdapter.write`: the date's text form. */
  function Write(d: Date): (s: string)
    requires IsValid(d)
    ensures 0 <= d.year <= 9999 ==> IsFullDate(s)
  {
    YearText(d.year) + "-" + Fixed(d.month, 2) + "-" + Fixed(d.day, 2)
  }

  /** The shape `YYYY-MM-DD` of RFC 3339 `full-date`: ten characters, dashes at 4 and 7. */
  predicate IsFullDate(s: string) {
    && |s| == 10
    && s[4] == '-' && s[7] == '-'
    && AllDigits(s[..4]) && AllDigits(s[5..7]) && AllDigits(s[8..])
  }

  /** The longest prefix of `s` made of digits. */
  function LeadingDigits(s: string): (r: string)
    ensures |r| <= |s| && r == s[..|r|] && AllDigits(r)
    ensures |r| < |s| ==> !IsDigit(s[|r|])
  {
    if |s| == 0 || !IsDigit(s[0]) then []
    else [s[0]] + LeadingDigits(s[1..])
  }

  datatype Sign = Plus | Minus | Unsigned

  function SignText(sign: Sign): string {
    match sign
    case Plus => "+"
    case Minus => "-"
    case Unsigned => ""
  }

  /** The optional leading sign of the year, and the text after it. */
  function SplitSign(s: string): (r: (Sign, string))
    ensures SignText(r.0) + r.1 == s
  {
    if |s| > 0 && s[0] == '+' then (Plus, s[1..])
    else if |s| > 0 && s[0] == '-' then (Minus, s[1..])
    else (Unsigned, s)
  }

  /**
   The year a sign and a digit run denote under the strict rules: 4 to 10 digits;
   `+` only before more than four digits; more than four digits only after a
   sign; no minus zero.
   */
  function YearOf(sign: Sign, run: string): (r: Option<int>)
    requires AllDigits(run)
  {
    if |run| < 4 || |run| > 10 then None
    else if sign == Plus && |run| <= 4 then None
    else if sign == Unsigned && |run| > 4 then None
    else if sign == Minus && Value(run) == 0 then None
    else if sign == Minus then Some(-(Value(run) as int))
    else Some(Value(run))
  }

  /** The `-MM-DD` that must follow the year and end the text. */
  predicate IsMonthDayTail(t: string) {
    && |t| == 6
    && t[0] == '-' && t[3] == '-'
    && AllDigits(t[1..3]) && AllDigits(t[4..])
  }

  /** The date a year and a month-day tail spell out, if it exists. */
  function DateOf(year: int, tail: string): (r: Option<Date>)
    requires IsMonthDayTail(tail)
    ensures r.Some? ==> IsValid(r.value)
  {
    var d := Date(year, Value(tail[1..3]), Value(tail[4..]));
    if IsValid(d) then Some(d) else None
  }

  /**
   `LocalDateAdapter.read`: `LocalDate.parse` with the strict ISO local-date
   format. The year is an optional sign and digits (see `YearOf`); month and day
   are exactly two digits each, nothing may follow the day, and the fields must
   form a valid date. Any other text is an error (`None`).
   */
  function Read(s: string): (r: Option<Date>)
    ensures r.Some? ==> IsValid(r.value)
    ensures r.Some? ==>
      && |s| >= 10
      && YearSpelled(s[..|s| - 6], r.value.year)
      && var tail := s[|s| - 6..];
      && IsMonthDayTail(tail)
      && r.value.month == Value(tail[1..3])
      && r.value.day == Value(tail[4..])
  {
    var (sign, rest) := SplitSign(s);
    var run := LeadingDigits(rest);
    var tail := rest[|run|..];
    match YearOf(sign, run)
    case None => None
    case Some(year) =>
      if IsMonthDayTail(tail) then
        ReadParts(s, year);
        DateOf(year, tail)
      else None
  }

  /**
   `p` is a year field the strict format accepts, spelling `year`: four digits
   unsigned; `+` and five to ten digits; or `-` and four to ten digits, not zero.
   */
  predicate YearSpelled(p: string, year: int) {
    || (|p| == 4 && AllDigits(p) && year == Value(p))
    || (6 <= |p| <= 11 && p[0] == '+' && AllDigits(p[1..]) && year == Value(p[1..]))
    || (5 <= |p| <= 11 && p[0] == '-' && AllDigits(p[1..]) && Value(p[1..]) != 0 && year == -(Value(p[1..]) as int))
  }

  /** The pieces `Read` splits an accepted text into, located in the text. */
  lemma ReadParts(s: string, year: int)
    requires var (sign, rest) := SplitSign(s);
      var run := LeadingDigits(rest);
      YearOf(sign, run) == Some(year) && IsMonthDayTail(rest[|run|..])
    ensures |s| >= 10 && s[|s| - 6..] == SplitSign(s).1[|LeadingDigits(SplitSign(s).1)|..]
    ensures YearSpelled(s[..|s| - 6], year)
  {
    var (sign, rest) := SplitSign(s);
    var run := LeadingDigits(rest);
    var tail := rest[|run|..];
    assert rest == run + tail;
    assert s == SignText(sign) + run + tail;
    assert s[..|s| - 6] == SignText(sign) + run;
    if sign != Unsigned {
      assert s[..|s| - 6][1..] == run;
    }
  }

  /**
   Text outside the strict form is not a date: a wrong separator, a one-digit
   month, a two-digit year, `+` before only four digits, minus zero, or
   anything after the day.
   */
  lemma ReadRejectsMalformed(s: string)
    requires s in ["2024/01/01", "2024-1-01", "24-01-01", "+2024-01-01", "-0000-01-01", "2024-01-01T00"]
    ensures Read(s) == None
  {
    if s == "2024/01/01" {
      assert s[4..][0] == '/';
    } else if s == "+2024-01-01" {
      assert s[..5] == "+2024";
    } else if s == "-0000-01-01" {
      assert s[..5][1..] == "0000";
      assert "0000"[..3] == "000" && "000"[..2] == "00" && "00"[..1] == "0" && "0"[..0] == "";
      assert Value("0000") == 0;
    } else if s == "2024-01-01T00" {
      assert s[7..][3] == 'T';
    }
  }

  /** A digit run followed by a non-digit is exactly the leading digits. */
  lemma {:induction false} LeadingDigitsOf(a: string, b: string)
    requires AllDigits(a)
    requires |b| > 0 && !IsDigit(b[0])
    ensures LeadingDigits(a + b) == a
    decreases |a|
  {
    if |a| > 0 {
      assert (a + b)[1..] == a[1..] + b;
      LeadingDigitsOf(a[1..], b);
    } else {
      assert a + b == b;
    }
  }

  /** `Read` of a sign, a digit run and a month-day tail, taken apart. */
  lemma ReadOf(sign: Sign, digits: string, tail: string)
    requires AllDigits(digits) && |digits| > 0 && IsMonthDayTail(tail)
    ensures Read(SignText(sign) + digits + tail) ==
      match YearOf(sign, digits)
      case None => None
      case Some(year) => DateOf(year, tail)
  {
    var s := SignText(sign) + digits + tail;
    LeadingDigitsOf(digits, tail);
    assert (digits + tail)[|digits|..] == tail;
    if sign == Unsigned {
      assert s == digits + tail;
      assert s[0] == digits[0];
      assert SplitSign(s) == (Unsigned, digits + tail);
    } else {
      assert s[1..] == digits + tail;
      assert SplitSign(s) == (sign, digits + tail);
    }
  }

  lemma MonthDayTail(d: Date)
    requires IsValid(d)
    ensures var tail := "-" + Fixed(d.month, 2) + "-" + Fixed(d.day, 2);
      IsMonthDayTail(tail) && DateOf(d.year, tail) == Some(d)
  {
    var tail := "-" + Fixed(d.month, 2) + "-" + Fixed(d.day, 2);
    assert tail[1..3] == Fixed(d.month, 2) && tail[4..] == Fixed(d.day, 2);
    assert Pow10(2) == 100;
    ValueOfFixed(d.month, 2);
    ValueOfFixed(d.day, 2);
  }

  /** The year field `Write` produces reads back under the sign rules. */
  lemma YearTextRead(year: int)
    requires MinYear <= year <= MaxYear
    ensures var (sign, digits) := YearParts(year);
      AllDigits(digits) && |digits| > 0 && SignText(sign) + digits == YearText(year) &&
      YearOf(sign, digits) == Some(year)
  {
    if 0 <= year <= 9999 {
      assert Pow10(4) == 10_000;
      ValueOfFixed(year, 4);
    } else if year > 9999 {
      PlusYearDigits(year);
    } else {
      MinusYearDigits(year);
    }
  }

  /** A year above 9999 is written with five to nine digits that read back as it. */
  lemma PlusYearDigits(year: int)
    requires 9999 < year <= MaxYear
    ensures var digits := Padded(year, 4);
      5 <= |digits| <= 9 && Value(digits) == year
  {
    Pow10Nine();
    assert Pow10(4) == 10_000;
    WidthAbove(year, 4);
    WidthAtMost(year, 9);
    assert |Padded(year, 4)| == Width(year);
    ValueOfPadded(year, 4);
  }

  /** A year below 0 is written with four to nine digits that read back as its magnitude. */
  lemma MinusYearDigits(year: int)
    requires MinYear <= year < 0
    ensures var digits := Padded(-year, 4);
      4 <= |digits| <= 9 && Value(digits) == -year
  {
    Pow10Nine();
    WidthAtMost(-year, 9);
    ValueOfPadded(-year, 4);
  }

  function YearParts(year: int): (Sign, string)
    requires MinYear <= year <= MaxYear
  {
    if 0 <= year <= 9999 then (Unsigned, Fixed(year, 4))
    else if year > 9999 then (Plus, Padded(year, 4))
    else (Minus, Padded(-year, 4))
  }

  /** Reading what `Write` produced gives the date back. */
  lemma ReadWrite(d: Date)
    requires IsValid(d)
    ensures Read(Write(d)) == Some(d)
  {
    var tail := "-" + Fixed(d.month, 2) + "-" + Fixed(d.day, 2);
    MonthDayTail(d);
    YearTextRead(d.year);
    var parts := YearParts(d.year);
    var s := SignText(parts.0) + parts.1 + tail;
    assert Write(d) == s by {
      assert YearText(d.year) == SignText(parts.0) + parts.1;
    }
    assert Read(s) == Some(d) by {
      ReadOf(parts.0, parts.1, tail);
    }
  }

  /** A `full-date` string reads as a date exactly when its month and day exist. */
  lemma ReadFullDate(s: string)
    requires IsFullDate(s)
    ensures Read(s).Some? <==>
      var m := Value(s[5..7]);
      1 <= m <= 12 && 1 <= Value(s[8..]) <= DaysInMonth(Value(s[..4]), m)
    ensures Read(s).Some? ==> Read(s).value == Date(Value(s[..4]), Value(s[5..7]), Value(s[8..]))
  {
    var digits, tail := s[..4], s[4..];
    assert tail[1..3] == s[5..7] && tail[4..] == s[8..];
    assert IsMonthDayTail(tail);
    assert s == SignText(Unsigned) + digits + tail;
    ReadOf(Unsigned, digits, tail);
    assert YearOf(Unsigned, digits) == Some(Value(digits));
    Pow10Nine();
    Pow10Monotone(4, 9);
  }

  /** Writing what was read from a `full-date` string gives the string back. */
  lemma WriteRead(s: string)
    requires IsFullDate(s) && Read(s).Some?
    ensures Write(Read(s).value) == s
  {
    ReadFullDate(s);
    FixedOfValue(s[..4]);
    FixedOfValue(s[5..7]);
    FixedOfValue(s[8..]);
    assert s == s[..4] + "-" + s[5..7] + "-" + s[8..];
  }
}

=== FILE: seqs.dfy ===
/**
 Order-preserving selection and first-match search over sequences: the two
 loop shapes both trackers use (a stream `filter` and a `for` loop that stops
 at the first matching record).
 */
module Seqs {
  import opened Wrappers

  /** `a` is `b` with some elements deleted, the rest in their original order. */
  predicate IsSubsequence<T(==)>(a: seq<T>, b: seq<T>)
    decreases |b|
  {
    if |a| == 0 then true
    else if |b| == 0 then false
    else (a[0] == b[0] && IsSubsequence(a[1..], b[1..])) || IsSubsequence(a, b[1..])
  }

  /** The elements of `s` that satisfy `p`, in the order of `s`. */
  function Filter<T(!new)>(s: seq<T>, p: T -> bool): (r: seq<T>)
    ensures |r| <= |s|
    ensures forall x :: x in r <==> x in s && p(x)
  {
    if |s| == 0 then []
    else (if p(s[0]) then [s[0]] else []) + Filter(s[1..], p)
  }

  /** The selection keeps every copy of a selected element and no copy of another. */
  lemma {:induction false} FilterMultiset<T(!new)>(s: seq<T>, p: T -> bool)
    ensures forall x :: multiset(Filter(s, p))[x] == if p(x) then multiset(s)[x] else 0
    decreases |s|
  {
    if |s| > 0 {
      FilterMultiset(s[1..], p);
      assert s == [s[0]] + s[1..];
    }
  }

  /** The selection keeps the relative order of `s`. */
  lemma {:induction false} FilterSubsequence<T(!new)>(s: seq<T>, p: T -> bool)
    ensures IsSubsequence(Filter(s, p), s)
    decreases |s|
  {
    if |s| > 0 {
      FilterSubsequence(s[1..], p);
      var r := Filter(s, p);
      if p(s[0]) {
        assert r[0] == s[0] && r[1..] == Filter(s[1..], p);
      } else {
        assert r == Filter(s[1..], p);
      }
    }
  }

  /** Selecting from a concatenation selects from each part. */
  lemma {:induction false} FilterAppend<T(!new)>(s: seq<T>, t: seq<T>, p: T -> bool)
    ensures Filter(s + t, p) == Filter(s, p) + Filter(t, p)
    decreases |s|
  {
    if |s| == 0 {
      assert s + t == t;
    } else {
      assert (s + t)[1..] == s[1..] + t;
      FilterAppend(s[1..], t, p);
    }
  }

  /** A predicate every element meets selects the whole sequence. */
  lemma {:induction false} FilterAll<T(!new)>(s: seq<T>, p: T -> bool)
    requires forall i :: 0 <= i < |s| ==> p(s[i])
    ensures Filter(s, p) == s
    decreases |s|
  {
    if |s| > 0 {
      FilterAll(s[1..], p);
    }
  }

  /** A predicate no element meets selects nothing. */
  lemma {:induction false} FilterNone<T(!new)>(s: seq<T>, p: T -> bool)
    requires forall i :: 0 <= i < |s| ==> !p(s[i])
    ensures Filter(s, p) == []
    decreases |s|
  {
    if |s| > 0 {
      FilterNone(s[1..], p);
    }
  }

  /** The index of the first element of `s` that satisfies `p`, if any. */
  function FindFirst<T>(s: seq<T>, p: T -> bool): (r: Option<nat>)
    ensures r.Some? ==> r.value < |s| && p(s[r.value])
    ensures r.Some? ==> forall j :: 0 <= j < r.value ==> !p(s[j])
    ensures r.None? <==> forall j :: 0 <= j < |s| ==> !p(s[j])
  {
    if |s| == 0 then None
    else if p(s[0]) then Some(0)
    else
      match FindFirst(s[1..], p)
      case None => None
      case Some(i) => Some(i + 1)
  }

  /** `s` without its element at index `i`; the others keep their order. */
  function RemoveAt<T>(s: seq<T>, i: nat): (r: seq<T>)
    requires i < |s|
    ensures |r| == |s| - 1
    ensures forall j :: 0 <= j < i ==> r[j] == s[j]
    ensures forall j :: i <= j < |r| ==> r[j] == s[j + 1]
  {
    s[..i] + s[i + 1..]
  }
}

=== FILE: tasks.dfy ===
/**
 The task list of `TaskTracker`: a sequence of task records kept in order,
 with add, status update and delete of the first record with a given id, a
 listing filtered by status, and the argument-count dispatcher of `main`.
 Every field is a string, as in the JSON objects the tool stores.
 */
module TaskTracker {
  import opened Wrappers
  import opened Seqs

  /** One JSON task object. */
  datatype Task = Task(id: string, name: string, status: string, createdAt: string, updatedAt: string)

  /** The status every new task starts with. */
  const NotDone := "not done"

  /** The `list` filter that selects every task. */
  const All := "all"

  const NoCommandMessage := "Please provide a command (add, update, delete, list, etc.)"
  const NoNameMessage := "Please provide a task name."
  const NoIdAndStatusMessage := "Please provide a task ID and new status (in-progress/done)."
  const NoIdMessage := "Please provide a task ID."
  const InvalidCommandMessage := "Invalid command."
  const NotFoundMessage := "Task not found."

  /** `i` is the index of the first task whose id is `id`. */
  predicate FirstWithId(tasks: seq<Task>, id: string, i: int) {
    && 0 <= i < |tasks|
    && tasks[i].id == id
    && forall j :: 0 <= j < i ==> tasks[j].id != id
  }

  predicate HasTaskId(tasks: seq<Task>, id: string) {
    exists i :: 0 <= i < |tasks| && tasks[i].id == id
  }

  /** No two tasks share an id. */
  predicate DistinctTaskIds(tasks: seq<Task>) {
    forall i, j :: 0 <= i < j < |tasks| ==> tasks[i].id != tasks[j].id
  }

  /** The index of the first task with id `id`: the loop both `update` and `delete` run. */
  function FindTask(tasks: seq<Task>, id: string): (r: Option<nat>)
    ensures r.None? <==> !HasTaskId(tasks, id)
    ensures r.Some? ==> FirstWithId(tasks, id, r.value)
  {
    FindFirst(tasks, (t: Task) => t.id == id)
  }

  /**
   `addTask`: a new task at the end, named `name`, with status "not done" and
   both time stamps equal to `now` (the single `LocalDateTime.now()` the class
   reads once). `freshId` stands for `UUID.randomUUID().toString()`.
   */
  function AddTask(tasks: seq<Task>, name: string, freshId: string, now: string): (r: seq<Task>)
    ensures |r| == |tasks| + 1 && r[..|tasks|] == tasks
    ensures r[|tasks|].id == freshId && r[|tasks|].name == name && r[|tasks|].status == NotDone
    ensures r[|tasks|].createdAt == now && r[|tasks|].updatedAt == now
  {
    tasks + [Task(freshId, name, NotDone, now, now)]
  }

  /**
   `updateTaskStatus`: the first task with id `id` gets `status` (any string)
   and `updatedAt := now`; every other task is unchanged. `None` is the
   "Task not found." case, in which nothing is saved.
   */
  function UpdateTaskStatus(tasks: seq<Task>, id: string, status: string, now: string): (r: Option<seq<Task>>)
    ensures r.None? <==> !HasTaskId(tasks, id)
    ensures forall i :: FirstWithId(tasks, id, i) ==>
      r.Some? && |r.value| == |tasks| &&
      r.value[i].status == status && r.value[i].updatedAt == now &&
      r.value[i].id == id && r.value[i].name == tasks[i].name && r.value[i].createdAt == tasks[i].createdAt &&
      forall j :: 0 <= j < |tasks| && j != i ==> r.value[j] == tasks[j]
  {
    match FindTask(tasks, id)
    case None => None
    case Some(i) => Some(tasks[i := tasks[i].(status := status, updatedAt := now)])
  }

  /**
   `deleteTask`: removes the first task with id `id` only; the others keep
   their order. `None` is the "Task not found." case.
   */
  function DeleteTask(tasks: seq<Task>, id: string): (r: Option<seq<Task>>)
    ensures r.None? <==> !HasTaskId(tasks, id)
    ensures forall i :: FirstWithId(tasks, id, i) ==>
      r.Some? && |r.value| == |tasks| - 1 &&
      (forall j :: 0 <= j < i ==> r.value[j] == tasks[j]) &&
      (forall j :: i <= j < |r.value| ==> r.value[j] == tasks[j + 1])
  {
    match FindTask(tasks, id)
    case None => None
    case Some(i) => Some(RemoveAt(tasks, i))
  }

  /** Whether `listTasks(filter)` prints `t`: "all" selects every task. */
  predicate Listed(filter: string, t: Task) {
    filter == All || t.status == filter
  }

  /** `listTasks`: the tasks it prints, in order. */
  function ListTasks(tasks: seq<Task>, filter: string): (r: seq<Task>)
    ensures forall t :: t in r <==> t in tasks && (filter == All || t.status == filter)
  {
    Filter(tasks, (t: Task) => Listed(filter, t))
  }

  /** The listing keeps the stored order and every copy of a listed task. */
  lemma ListTasksOrder(tasks: seq<Task>, filter: string)
    ensures IsSubsequence(ListTasks(tasks, filter), tasks)
    ensures forall t ::
      multiset(ListTasks(tasks, filter))[t] == if filter == All || t.status == filter then multiset(tasks)[t] else 0
  {
    FilterSubsequence(tasks, (t: Task) => Listed(filter, t));
    FilterMultiset(tasks, (t: Task) => Listed(filter, t));
  }

  /** `list all` prints every task, in the stored order. */
  lemma ListAllIsEverything(tasks: seq<Task>)
    ensures ListTasks(tasks, All) == tasks
  {
    FilterAll(tasks, (t: Task) => Listed(All, t));
  }

  /** A task just added shows last under "all" and under "not done". */
  lemma AddThenList(tasks: seq<Task>, name: string, freshId: string, now: string, filter: string)
    requires filter == All || filter == NotDone
    ensures ListTasks(AddTask(tasks, name, freshId, now), filter) ==
      ListTasks(tasks, filter) + [Task(freshId, name, NotDone, now, now)]
  {
    var p := (t: Task) => Listed(filter, t);
    var n := Task(freshId, name, NotDone, now, now);
    FilterAppend(tasks, [n], p);
    assert Filter([n], p) == [n];
  }

  /** An add with an id nobody has keeps the ids distinct. */
  lemma AddKeepsTaskIdsDistinct(tasks: seq<Task>, name: string, freshId: string, now: string)
    requires DistinctTaskIds(tasks) && !HasTaskId(tasks, freshId)
    ensures DistinctTaskIds(AddTask(tasks, name, freshId, now))
  {
    var r := AddTask(tasks, name, freshId, now);
    forall i, j | 0 <= i < j < |r|
      ensures r[i].id != r[j].id
    {
      if j == |tasks| {
        assert r[i] == tasks[i];
      } else {
        assert r[i] == tasks[i] && r[j] == tasks[j];
      }
    }
  }

  /** Deleting the task just added, by its fresh id, gives the list back. */
  lemma DeleteUndoesAdd(tasks: seq<Task>, name: string, freshId: string, now: string)
    requires !HasTaskId(tasks, freshId)
    ensures DeleteTask(AddTask(tasks, name, freshId, now), freshId) == Some(tasks)
  {
    var r := AddTask(tasks, name, freshId, now);
    assert FirstWithId(r, freshId, |tasks|) by {
      forall j | 0 <= j < |tasks|
        ensures r[j].id != freshId
      {
        assert r[j] == tasks[j];
      }
    }
    assert DeleteTask(r, freshId).value == tasks;
  }

  /** A status update changes no id, so it keeps the ids distinct. */
  lemma UpdateKeepsTaskIds(tasks: seq<Task>, id: string, status: string, now: string)
    requires UpdateTaskStatus(tasks, id, status, now).Some?
    ensures var r := UpdateTaskStatus(tasks, id, status, now).value;
      |r| == |tasks| && forall j :: 0 <= j < |r| ==> r[j].id == tasks[j].id
  {
    var i := FindTask(tasks, id).value;
    assert FirstWithId(tasks, id, i);
  }

  /** Updating twice to the same status at the same time is the same as once. */
  lemma UpdateIdempotent(tasks: seq<Task>, id: string, status: string, now: string)
    requires UpdateTaskStatus(tasks, id, status, now).Some?
    ensures var r := UpdateTaskStatus(tasks, id, status, now).value;
      UpdateTaskStatus(r, id, status, now) == Some(r)
  {
    var i := FindTask(tasks, id).value;
    assert FirstWithId(tasks, id, i);
    var r := UpdateTaskStatus(tasks, id, status, now).value;
    assert FirstWithId(r, id, i) by {
      forall j | 0 <= j < i
        ensures r[j].id != id
      {
        assert r[j] == tasks[j];
      }
    }
    var r2 := UpdateTaskStatus(r, id, status, now).value;
    assert r2 == r;
  }

  /** With distinct ids, a deleted task is gone: a second delete finds nothing. */
  lemma DeleteTaskTwice(tasks: seq<Task>, id: string)
    requires DistinctTaskIds(tasks) && DeleteTask(tasks, id).Some?
    ensures DeleteTask(DeleteTask(tasks, id).value, id).None?
  {
    var i := FindTask(tasks, id).value;
    assert FirstWithId(tasks, id, i);
    var r := DeleteTask(tasks, id).value;
    forall k | 0 <= k < |r|
      ensures r[k].id != id
    {
      if k >= i {
        assert r[k] == tasks[k + 1];
      } else {
        assert r[k] == tasks[k];
      }
    }
  }

  /** What `main` printed: a line of text, or a `listTasks` listing. */
  datatype Reply = Say(text: string) | Listing(tasks: seq<Task>)

  /** The replies of one `main` call and the task list it saved, if it saved one. */
  datatype Outcome = Outcome(replies: seq<Reply>, saved: Option<seq<Task>>)

  /**
   `main`: dispatch on the first argument. `stored` is what `loadTasks` read;
   `freshId` and `now` stand for the random id and the class's time stamp.
   */
  function Main(args: seq<string>, stored: seq<Task>, freshId: string, now: string): (r: Outcome)
    ensures |r.replies| == 1
    ensures |args| == 0 ==> r == Outcome([Say(NoCommandMessage)], None)
    ensures |args| > 0 && args[0] !in {"add", "update", "delete", "list"} ==>
      r == Outcome([Say(InvalidCommandMessage)], None)
    ensures r.saved.Some? ==> |args| >= 2 && args[0] in {"add", "update", "delete"}
    ensures r.saved.Some? && args[0] == "add" ==> r.saved.value == AddTask(stored, args[1], freshId, now)
    ensures r.replies[0].Listing? <==> |args| > 0 && args[0] == "list"
    ensures |args| >= 3 && args[0] == "update" ==> r.saved == UpdateTaskStatus(stored, args[1], args[2], now)
    ensures |args| >= 2 && args[0] == "delete" ==> r.saved == DeleteTask(stored, args[1])
    ensures |args| >= 3 && args[0] == "update" && HasTaskId(stored, args[1]) ==>
      r.replies == [Say("Task " + args[1] + " updated to " + args[2])]
    ensures |args| >= 2 && args[0] == "delete" && HasTaskId(stored, args[1]) ==>
      r.replies == [Say("Task " + args[1] + " deleted.")]
    ensures |args| >= 2 && args[0] == "list" ==> r.replies == [Listing(ListTasks(stored, args[1]))]
  {
    if |args| < 1 then Outcome([Say(NoCommandMessage)], None)
    else
      var command := args[0];
      if command == "add" then
        if |args| < 2 then Outcome([Say(NoNameMessage)], None)
        else Outcome([Say("Task added: " + args[1])], Some(AddTask(stored, args[1], freshId, now)))
      else if command == "update" then
        if |args| < 3 then Outcome([Say(NoIdAndStatusMessage)], None)
        else
          match UpdateTaskStatus(stored, args[1], args[2], now)
          case None => Outcome([Say(NotFoundMessage)], None)
          case Some(tasks) => Outcome([Say("Task " + args[1] + " updated to " + args[2])], Some(tasks))
      else if command == "delete" then
        if |args| < 2 then Outcome([Say(NoIdMessage)], None)
        else
          match DeleteTask(stored, args[1])
          case None => Outcome([Say(NotFoundMessage)], None)
          case Some(tasks) => Outcome([Say("Task " + args[1] + " deleted.")], Some(tasks))
      else if command == "list" then
        Outcome([Listing(ListTasks(stored, if |args| == 1 then All else args[1]))], None)
      else Outcome([Say(InvalidCommandMessage)], None)
  }

  /**
   `main` saves exactly for `add` with a name, and for `update` or `delete`
   with enough arguments and an id that is stored.
   */
  lemma MainSavesIff(args: seq<string>, stored: seq<Task>, freshId: string, now: string)
    ensures Main(args, stored, freshId, now).saved.Some? <==>
      || (|args| >= 2 && args[0] == "add")
      || (|args| >= 3 && args[0] == "update" && HasTaskId(stored, args[1]))
      || (|args| >= 2 && args[0] == "delete" && HasTaskId(stored, args[1]))
  {
  }

  /** Below its argument count, a command prints its usage line and saves nothing. */
  lemma MissingArguments(args: seq<string>, stored: seq<Task>, freshId: string, now: string)
    requires |args| > 0
    ensures args[0] == "add" && |args| < 2 ==>
      Main(args, stored, freshId, now) == Outcome([Say(NoNameMessage)], None)
    ensures args[0] == "update" && |args| < 3 ==>
      Main(args, stored, freshId, now) == Outcome([Say(NoIdAndStatusMessage)], None)
    ensures args[0] == "delete" && |args| < 2 ==>
      Main(args, stored, freshId, now) == Outcome([Say(NoIdMessage)], None)
  {
  }

  /** An update or delete of an id that is not stored reports "Task not found." and saves nothing. */
  lemma UnknownIdNotFound(args: seq<string>, stored: seq<Task>, freshId: string, now: string)
    requires |args| > 0
    requires (args[0] == "update" && |args| >= 3) || (args[0] == "delete" && |args| >= 2)
    requires !HasTaskId(stored, args[1])
    ensures Main(args, stored, freshId, now) == Outcome([Say(NotFoundMessage)], None)
  {
  }

  /** `add <name>` reports the name and saves the list with the new task last. */
  lemma MainAdd(name: string, extra: seq<string>, stored: seq<Task>, freshId: string, now: string)
    ensures var r := Main(["add", name] + extra, stored, freshId, now);
      r.replies == [Say("Task added: " + name)] &&
      r.saved.Some? && r.saved.value[|stored|] == Task(freshId, name, NotDone, now, now)
  {
  }

  /** `list` with no filter lists every task. */
  lemma MainListAll(stored: seq<Task>, freshId: string, now: string)
    ensures Main(["list"], stored, freshId, now) == Outcome([Listing(stored)], None)
  {
    ListAllIsEverything(stored);
  }

  /** The invocations whose output the test suite pins. */
  lemma PinnedMessages(stored: seq<Task>, freshId: string, now: string)
    ensures Main([], stored, freshId, now).replies == [Say("Please provide a command (add, update, delete, list, etc.)")]
    ensures Main(["add"], stored, freshId, now).replies == [Say("Please provide a task name.")]
    ensures Main(["update"], stored, freshId, now).replies == [Say("Please provide a task ID and new status (in-progress/done).")]
    ensures Main(["update", "123"], stored, freshId, now).replies == [Say("Please provide a task ID and new status (in-progress/done).")]
    ensures Main(["delete"], stored, freshId, now).replies == [Say("Please provide a task ID.")]
    ensures Main(["invalid"], stored, freshId, now).replies == [Say("Invalid command.")]
  {
  }
}

=== FILE: tracker.dfy ===
/**
 One invocation of `ExpenseTracker.main`: after the front end has parsed the
 flags, the loaded snapshot goes through at most one of each operation, in a
 fixed order (add, update, delete, summary, list, month summary, category
 filter, set budget), then the budget check for the current month, then the
 save. Budgets start empty on every run and are never saved. An exception
 nothing catches ends the run at once, and then nothing is saved.
 */
module ExpenseTracker {
  import opened Wrappers
  import opened LocalDateAdapter
  import opened Expenses
  import opened ExpenseLedger

  datatype AddArgs = AddArgs(amount: Option<Cents>, description: string, category: string)

  datatype UpdateArgs = UpdateArgs(id: IdParse, amount: Option<Cents>, description: string, category: string)

  /** The `--set-budget` month and amount; `None` where `Month.valueOf` or `parseDouble` throws. */
  datatype BudgetArgs = BudgetArgs(month: Option<Month>, amount: Option<Cents>)

  /** The parsed flags; each operation is requested at most once. */
  datatype Request = Request(
    help: bool,
    add: Option<AddArgs>,
    update: Option<UpdateArgs>,
    delete: Option<IdParse>,
    summary: bool,
    listAll: bool,
    monthSummary: Option<int>,
    categoryFilter: Option<string>,
    setBudget: Option<BudgetArgs>)

  /** The snapshot during a run; `halted` once an uncaught exception has been thrown. */
  datatype State = State(expenses: seq<Expense>, budgets: map<Month, Cents>, reports: seq<Report>, halted: bool)

  /** What a run printed, and the expense list it saved, if it reached the save. */
  datatype Outcome = Outcome(reports: seq<Report>, saved: Option<seq<Expense>>)

  /** Records one operation's step; an `Aborted` report halts the run. */
  function Record(s: State, step: Step): State {
    State(step.expenses, s.budgets, s.reports + [step.report], step.report.Aborted?)
  }

  /** Records a query's report; the expense list stays as it is. */
  function Reported(s: State, r: Report): State {
    Record(s, Step(s.expenses, r))
  }

  function DoAdd(s: State, a: Option<AddArgs>, freshId: Uuid, today: Date): State {
    if s.halted || a.None? then s
    else Record(s, AddExpense(s.expenses, a.value.amount, a.value.description, a.value.category, freshId, today))
  }

  function DoUpdate(s: State, u: Option<UpdateArgs>): State {
    if s.halted || u.None? then s
    else Record(s, UpdateExpense(s.expenses, u.value.id, u.value.amount, u.value.description, u.value.category))
  }

  function DoDelete(s: State, d: Option<IdParse>): State {
    if s.halted || d.None? then s
    else Record(s, DeleteExpense(s.expenses, d.value))
  }

  function DoSummary(s: State, requested: bool): State {
    if s.halted || !requested then s else Reported(s, ExpenseSummary(s.expenses))
  }

  function DoList(s: State, requested: bool): State {
    if s.halted || !requested then s else Reported(s, ListAll(s.expenses))
  }

  function DoMonthSummary(s: State, m: Option<int>): State {
    if s.halted || m.None? then s else Reported(s, MonthSummaryOf(s.expenses, m.value))
  }

  function DoCategoryFilter(s: State, token: Option<string>): State {
    if s.halted || token.None? then s else Reported(s, FilterByCategory(s.expenses, token.value))
  }

  /**
   `--set-budget`: a month name or amount that does not parse throws out of
   `main`; otherwise that month's cap is set or replaced.
   */
  function DoSetBudget(s: State, b: Option<BudgetArgs>): (r: State)
    ensures r.expenses == s.expenses
    ensures s.halted || b.None? ==> r == s
    ensures !s.halted && b.Some? && (b.value.month.None? || b.value.amount.None?) ==>
      r.halted && r.budgets == s.budgets && r.reports == s.reports + [Aborted]
    ensures !s.halted && b.Some? && b.value.month.Some? && b.value.amount.Some? ==>
      var m, a := b.value.month.value, b.value.amount.value;
      && !r.halted && r.reports == s.reports + [BudgetSet(m, a)]
      && r.budgets.Keys == s.budgets.Keys + {m} && r.budgets[m] == a
      && forall k :: k in s.budgets && k != m ==> r.budgets[k] == s.budgets[k]
  {
    if s.halted || b.None? then s
    else if b.value.month.None? || b.value.amount.None? then Reported(s, Aborted)
    else
      var m, a := b.value.month.value, b.value.amount.value;
      State(s.expenses, SetMonthlyBudget(s.budgets, m, a), s.reports + [BudgetSet(m, a)], false)
  }

  /**
   `checkBudget` for the current month: a warning is appended exactly when the
   run is still going, the month has a cap, and its total is above the cap.
   */
  function DoCheckBudget(s: State, m: Month): (r: State)
    ensures r.expenses == s.expenses && r.budgets == s.budgets && r.halted == s.halted
    ensures r.reports == s.reports || r.reports == s.reports + [BudgetWarning(m)]
    ensures r.reports == s.reports + [BudgetWarning(m)] <==>
      !s.halted && m in s.budgets && MonthlyTotal(s.expenses, m) > s.budgets[m]
  {
    if s.halted || !BudgetExceeded(s.expenses, s.budgets, m) then s
    else s.(reports := s.reports + [BudgetWarning(m)])
  }

  /**
   The list a run that reaches the save writes, in terms of the ledger
   operations alone: the requested add, update and delete applied in turn to
   the loaded list.
   */
  function SavedList(stored: seq<Expense>, req: Request, today: Date, freshId: Uuid): seq<Expense> {
    var afterAdd :=
      if req.add.None? then stored
      else AddExpense(stored, req.add.value.amount, req.add.value.description, req.add.value.category, freshId, today).expenses;
    var afterUpdate :=
      if req.update.None? then afterAdd
      else
        var u := req.update.value;
        UpdateExpense(afterAdd, u.id, u.amount, u.description, u.category).expenses;
    if req.delete.None? then afterUpdate else DeleteExpense(afterUpdate, req.delete.value).expenses
  }

  /** `--update` throws out of `main` for an id of the wrong shape, or an unknown category once id and amount parse. */
  predicate UpdateAborts(u: UpdateArgs) {
    u.id.BadShape? || (u.id.ValidId? && u.amount.Some? && ParseCategory(u.category).None?)
  }

  /**
   The requests that make `main` throw, whatever the loaded list: a failing
   `--update`, a `--month-summary` month outside 1..12 (`Month.of`), or a
   `--set-budget` month or amount that does not parse. Add, delete, the
   summaries, the list and the category filter never throw.
   */
  predicate Aborts(req: Request) {
    || (req.update.Some? && UpdateAborts(req.update.value))
    || (req.monthSummary.Some? && !(1 <= req.monthSummary.value <= 12))
    || (req.setBudget.Some? && (req.setBudget.value.month.None? || req.setBudget.value.amount.None?))
  }

  /**
   `main` from the point the flags are parsed: `stored` is what `loadExpenses`
   read, `today` stands for `LocalDate.now()` and `freshId` for
   `UUID.randomUUID()`.
   */
  function Run(stored: seq<Expense>, req: Request, today: Date, freshId: Uuid): (r: Outcome)
    requires IsValid(today)
    ensures req.help ==> r == Outcome([Usage], None)
    ensures r.saved.None? <==> req.help || Aborted in r.reports
    ensures r.saved.Some? <==> !req.help && !Aborts(req)
    ensures r.saved.Some? ==> r.saved.value == SavedList(stored, req, today, freshId)
  {
    if req.help then Outcome([Usage], None)
    else
      var s0 := State(stored, map[], [], false);
      var s := Steps(s0, req, today, freshId);
      HaltedIffAborted(s0, req, today, freshId);
      QueriesKeepExpenses(Mutations(s0, req, today, freshId), req, today.month);
      MutationsFollowLedger(stored, req, today, freshId);
      HaltsIffAborts(stored, req, today, freshId);
      Outcome(s.reports, if s.halted then None else Some(s.expenses))
  }

  /** The steps of a run, from the loaded snapshot to the state before the save. */
  function Steps(s0: State, req: Request, today: Date, freshId: Uuid): State
    requires IsValid(today)
  {
    AfterSummary(DoSummary(Mutations(s0, req, today, freshId), req.summary), req, today.month)
  }

  /** Add, update and delete, in that order. */
  function Mutations(s0: State, req: Request, today: Date, freshId: Uuid): State {
    DoDelete(DoUpdate(DoAdd(s0, req.add, freshId, today), req.update), req.delete)
  }

  /** List, month summary, category filter, set budget and the budget check. */
  function AfterSummary(s: State, req: Request, m: Month): State {
    DoCheckBudget(
      DoSetBudget(
        DoCategoryFilter(
          DoMonthSummary(
            DoList(s, req.listAll),
            req.monthSummary),
          req.categoryFilter),
        req.setBudget),
      m)
  }

  /** A state is halted exactly when one of its reports is `Aborted`. */
  predicate HaltedIffAbortedState(s: State) {
    s.halted <==> Aborted in s.reports
  }

  lemma RecordKeepsHaltedIff(s: State, step: Step)
    requires HaltedIffAbortedState(s) && !s.halted
    ensures HaltedIffAbortedState(Record(s, step))
  {
  }

  // Each step keeps `halted` in step with the `Aborted` reports.

  lemma AddKeepsHaltedIff(s: State, a: Option<AddArgs>, freshId: Uuid, today: Date)
    requires HaltedIffAbortedState(s)
    ensures HaltedIffAbortedState(DoAdd(s, a, freshId, today))
  {
    if !s.halted && a.Some? {
      var x := a.value;
      RecordKeepsHaltedIff(s, AddExpense(s.expenses, x.amount, x.description, x.category, freshId, today));
    }
  }

  lemma UpdateKeepsHaltedIff(s: State, u: Option<UpdateArgs>)
    requires HaltedIffAbortedState(s)
    ensures HaltedIffAbortedState(DoUpdate(s, u))
  {
    if !s.halted && u.Some? {
      var x := u.value;
      RecordKeepsHaltedIff(s, UpdateExpense(s.expenses, x.id, x.amount, x.description, x.category));
    }
  }

  lemma DeleteKeepsHaltedIff(s: State, d: Option<IdParse>)
    requires HaltedIffAbortedState(s)
    ensures HaltedIffAbortedState(DoDelete(s, d))
  {
    if !s.halted && d.Some? {
      RecordKeepsHaltedIff(s, DeleteExpense(s.expenses, d.value));
    }
  }

  lemma SummaryKeepsHaltedIff(s: State, requested: bool)
    requires HaltedIffAbortedState(s)
    ensures HaltedIffAbortedState(DoSummary(s, requested))
  {
    if !s.halted && requested {
      RecordKeepsHaltedIff(s, Step(s.expenses, ExpenseSummary(s.expenses)));
    }
  }

  lemma ListKeepsHaltedIff(s: State, requested: bool)
    requires HaltedIffAbortedState(s)
    ensures HaltedIffAbortedState(DoList(s, requested))
  {
    if !s.halted && requested {
      RecordKeepsHaltedIff(s, Step(s.expenses, ListAll(s.expenses)));
    }
  }

  lemma MonthSummaryKeepsHaltedIff(s: State, m: Option<int>)
    requires HaltedIffAbortedState(s)
    ensures HaltedIffAbortedState(DoMonthSummary(s, m))
  {
    if !s.halted && m.Some? {
      RecordKeepsHaltedIff(s, Step(s.expenses, MonthSummaryOf(s.expenses, m.value)));
    }
  }

  lemma CategoryFilterKeepsHaltedIff(s: State, token: Option<string>)
    requires HaltedIffAbortedState(s)
    ensures HaltedIffAbortedState(DoCategoryFilter(s, token))
  {
    if !s.halted && token.Some? {
      RecordKeepsHaltedIff(s, Step(s.expenses, FilterByCategory(s.expenses, token.value)));
    }
  }

  lemma SetBudgetKeepsHaltedIff(s: State, b: Option<BudgetArgs>)
    requires HaltedIffAbortedState(s)
    ensures HaltedIffAbortedState(DoSetBudget(s, b))
  {
    if !s.halted && b.Some? {
      RecordKeepsHaltedIff(s, Step(s.expenses, Aborted));
    }
  }

  lemma CheckBudgetKeepsHaltedIff(s: State, m: Month)
    requires HaltedIffAbortedState(s)
    ensures HaltedIffAbortedState(DoCheckBudget(s, m))
  {
  }

  lemma HaltedIffAborted(s0: State, req: Request, today: Date, freshId: Uuid)
    requires IsValid(today) && s0.reports == [] && !s0.halted
    ensures HaltedIffAbortedState(Steps(s0, req, today, freshId))
  {
    var s1 := DoAdd(s0, req.add, freshId, today);
    AddKeepsHaltedIff(s0, req.add, freshId, today);
    var s2 := DoUpdate(s1, req.update);
    UpdateKeepsHaltedIff(s1, req.update);
    var s3 := DoDelete(s2, req.delete);
    DeleteKeepsHaltedIff(s2, req.delete);
    var s4 := DoSummary(s3, req.summary);
    SummaryKeepsHaltedIff(s3, req.summary);
    var s5 := DoList(s4, req.listAll);
    ListKeepsHaltedIff(s4, req.listAll);
    var s6 := DoMonthSummary(s5, req.monthSummary);
    MonthSummaryKeepsHaltedIff(s5, req.monthSummary);
    var s7 := DoCategoryFilter(s6, req.categoryFilter);
    CategoryFilterKeepsHaltedIff(s6, req.categoryFilter);
    var s8 := DoSetBudget(s7, req.setBudget);
    SetBudgetKeepsHaltedIff(s7, req.setBudget);
    CheckBudgetKeepsHaltedIff(s8, today.month);
  }

  /**
   Add, update and delete, when none of them halts the run, leave exactly the
   list the ledger operations compute.
   */
  lemma MutationsFollowLedger(stored: seq<Expense>, req: Request, today: Date, freshId: Uuid)
    ensures var s3 := Mutations(State(stored, map[], [], false), req, today, freshId);
      !s3.halted ==> s3.expenses == SavedList(stored, req, today, freshId)
  {
    var s0 := State(stored, map[], [], false);
    var s1 := DoAdd(s0, req.add, freshId, today);
    var s2 := DoUpdate(s1, req.update);
    var s3 := DoDelete(s2, req.delete);
    if !s3.halted {
      assert !s2.halted && !s1.halted;
    }
  }

  /** The steps after delete never change the expense list, and a halted run stays halted. */
  lemma QueriesKeepExpenses(s: State, req: Request, m: Month)
    ensures var t := DoCheckBudget(DoSetBudget(DoCategoryFilter(DoMonthSummary(DoList(DoSummary(
              s, req.summary), req.listAll), req.monthSummary), req.categoryFilter), req.setBudget), m);
      t.expenses == s.expenses && (s.halted ==> t.halted)
  {
    var s4 := DoSummary(s, req.summary);
    assert s4.expenses == s.expenses;
    var s5 := DoList(s4, req.listAll);
    assert s5.expenses == s.expenses;
    var s6 := DoMonthSummary(s5, req.monthSummary);
    assert s6.expenses == s.expenses;
    var s7 := DoCategoryFilter(s6, req.categoryFilter);
    assert s7.expenses == s.expenses;
    var s8 := DoSetBudget(s7, req.setBudget);
    assert s8.expenses == s.expenses;
  }

  lemma AddStepKeepsIdsDistinct(s: State, a: Option<AddArgs>, freshId: Uuid, today: Date)
    requires DistinctIds(s.expenses) && !HasId(s.expenses, freshId)
    ensures DistinctIds(DoAdd(s, a, freshId, today).expenses)
  {
    if !s.halted && a.Some? {
      AddKeepsIdsDistinct(s.expenses, a.value.amount, a.value.description, a.value.category, freshId, today);
    }
  }

  lemma UpdateStepKeepsIdsDistinct(s: State, u: Option<UpdateArgs>)
    requires DistinctIds(s.expenses)
    ensures DistinctIds(DoUpdate(s, u).expenses)
  {
    if !s.halted && u.Some? {
      UpdateKeepsIds(s.expenses, u.value.id, u.value.amount, u.value.description, u.value.category);
    }
  }

  lemma DeleteStepKeepsIdsDistinct(s: State, d: Option<IdParse>)
    requires DistinctIds(s.expenses)
    ensures DistinctIds(DoDelete(s, d).expenses)
  {
    if !s.halted && d.Some? {
      DeleteKeepsIdsDistinct(s.expenses, d.value);
    }
  }

  /**
   Identity: when the loaded ids are distinct and the fresh id is new, the saved
   list has distinct ids too.
   */
  lemma RunKeepsIdsDistinct(stored: seq<Expense>, req: Request, today: Date, freshId: Uuid)
    requires IsValid(today) && DistinctIds(stored) && !HasId(stored, freshId)
    ensures var r := Run(stored, req, today, freshId);
      r.saved.Some? ==> DistinctIds(r.saved.value)
  {
    if !req.help {
      var s0 := State(stored, map[], [], false);
      var s1 := DoAdd(s0, req.add, freshId, today);
      AddStepKeepsIdsDistinct(s0, req.add, freshId, today);
      var s2 := DoUpdate(s1, req.update);
      UpdateStepKeepsIdsDistinct(s1, req.update);
      var s3 := DoDelete(s2, req.delete);
      DeleteStepKeepsIdsDistinct(s2, req.delete);
      QueriesKeepExpenses(s3, req, today.month);
      assert Steps(s0, req, today, freshId).expenses == s3.expenses;
    }
  }

  /**
   With neither add, update nor delete requested, a run that reaches the save
   writes back exactly the list it loaded.
   */
  lemma QueryRunSavesSnapshot(stored: seq<Expense>, req: Request, today: Date, freshId: Uuid)
    requires IsValid(today)
    requires req.add.None? && req.update.None? && req.delete.None?
    ensures var r := Run(stored, req, today, freshId);
      r.saved.Some? ==> r.saved.value == stored
  {
    if !req.help {
      QueriesKeepExpenses(State(stored, map[], [], false), req, today.month);
    }
  }

  /** The steps before the budget is set never touch the budget map. */
  lemma BudgetsUntouchedBeforeSet(s0: State, req: Request, today: Date, freshId: Uuid)
    ensures var s7 := DoCategoryFilter(DoMonthSummary(DoList(DoSummary(DoDelete(DoUpdate(
              DoAdd(s0, req.add, freshId, today), req.update), req.delete), req.summary), req.listAll),
              req.monthSummary), req.categoryFilter);
      s7.budgets == s0.budgets
  {
    var s1 := DoAdd(s0, req.add, freshId, today);
    assert s1.budgets == s0.budgets;
    var s2 := DoUpdate(s1, req.update);
    assert s2.budgets == s0.budgets;
    var s3 := DoDelete(s2, req.delete);
    assert s3.budgets == s0.budgets;
    var s4 := DoSummary(s3, req.summary);
    assert s4.budgets == s0.budgets;
    var s5 := DoList(s4, req.listAll);
    assert s5.budgets == s0.budgets;
    var s6 := DoMonthSummary(s5, req.monthSummary);
    assert s6.budgets == s0.budgets;
  }

  /**
   Budgets are not persisted: a run that sets no budget starts from an empty
   map and so never warns, whatever was spent.
   */
  lemma NoBudgetNoWarning(stored: seq<Expense>, req: Request, today: Date, freshId: Uuid)
    requires IsValid(today) && req.setBudget.None?
    ensures forall m: Month :: BudgetWarning(m) !in Run(stored, req, today, freshId).reports
  {
    if !req.help {
      var s0 := State(stored, map[], [], false);
      BudgetsUntouchedBeforeSet(s0, req, today, freshId);
      BudgetWarningOnlyFromCheck(s0, req, today, freshId);
    }
  }

  predicate NoWarning(reports: seq<Report>) {
    forall i :: 0 <= i < |reports| ==> !reports[i].BudgetWarning?
  }

  lemma RecordNoWarning(s: State, step: Step)
    requires NoWarning(s.reports) && !step.report.BudgetWarning?
    ensures NoWarning(Record(s, step).reports)
  {
  }

  // Each step before the budget check leaves the reports free of budget warnings.

  lemma AddNoWarning(s: State, a: Option<AddArgs>, freshId: Uuid, today: Date)
    requires NoWarning(s.reports)
    ensures NoWarning(DoAdd(s, a, freshId, today).reports)
  {
    if !s.halted && a.Some? {
      var x := a.value;
      RecordNoWarning(s, AddExpense(s.expenses, x.amount, x.description, x.category, freshId, today));
    }
  }

  lemma UpdateNoWarning(s: State, u: Option<UpdateArgs>)
    requires NoWarning(s.reports)
    ensures NoWarning(DoUpdate(s, u).reports)
  {
    if !s.halted && u.Some? {
      var x := u.value;
      RecordNoWarning(s, UpdateExpense(s.expenses, x.id, x.amount, x.description, x.category));
    }
  }

  lemma DeleteNoWarning(s: State, d: Option<IdParse>)
    requires NoWarning(s.reports)
    ensures NoWarning(DoDelete(s, d).reports)
  {
    if !s.halted && d.Some? {
      RecordNoWarning(s, DeleteExpense(s.expenses, d.value));
    }
  }

  lemma SummaryNoWarning(s: State, requested: bool)
    requires NoWarning(s.reports)
    ensures NoWarning(DoSummary(s, requested).reports)
  {
  }

  lemma ListNoWarning(s: State, requested: bool)
    requires NoWarning(s.reports)
    ensures NoWarning(DoList(s, requested).reports)
  {
  }

  lemma MonthSummaryNoWarning(s: State, m: Option<int>)
    requires NoWarning(s.reports)
    ensures NoWarning(DoMonthSummary(s, m).reports)
  {
  }

  lemma CategoryFilterNoWarning(s: State, token: Option<string>)
    requires NoWarning(s.reports)
    ensures NoWarning(DoCategoryFilter(s, token).reports)
  {
  }

  lemma SetBudgetNoWarning(s: State, b: Option<BudgetArgs>)
    requires NoWarning(s.reports)
    ensures NoWarning(DoSetBudget(s, b).reports)
  {
  }

  /** Only the final budget check can report a warning. */
  lemma BudgetWarningOnlyFromCheck(s0: State, req: Request, today: Date, freshId: Uuid)
    requires IsValid(today) && s0.reports == []
    ensures var s8 := DoSetBudget(DoCategoryFilter(DoMonthSummary(DoList(DoSummary(DoDelete(DoUpdate(
              DoAdd(s0, req.add, freshId, today), req.update), req.delete), req.summary), req.listAll),
              req.monthSummary), req.categoryFilter), req.setBudget);
      forall m: Month :: BudgetWarning(m) !in s8.reports
  {
    var s1 := DoAdd(s0, req.add, freshId, today);
    AddNoWarning(s0, req.add, freshId, today);
    var s2 := DoUpdate(s1, req.update);
    UpdateNoWarning(s1, req.update);
    var s3 := DoDelete(s2, req.delete);
    DeleteNoWarning(s2, req.delete);
    var s4 := DoSummary(s3, req.summary);
    SummaryNoWarning(s3, req.summary);
    var s5 := DoList(s4, req.listAll);
    ListNoWarning(s4, req.listAll);
    var s6 := DoMonthSummary(s5, req.monthSummary);
    MonthSummaryNoWarning(s5, req.monthSummary);
    var s7 := DoCategoryFilter(s6, req.categoryFilter);
    CategoryFilterNoWarning(s6, req.categoryFilter);
    var s8 := DoSetBudget(s7, req.setBudget);
    SetBudgetNoWarning(s7, req.setBudget);
    assert NoWarning(s8.reports);
  }

  /**
   An unknown category in `--update` escapes `main`: the run reports the abort
   and saves nothing, so an expense added earlier in the same run is lost.
   */
  lemma UpdateCategoryTypoSavesNothing(stored: seq<Expense>, req: Request, today: Date, freshId: Uuid)
    requires IsValid(today) && !req.help
    requires req.update.Some? && req.update.value.id.ValidId? && req.update.value.amount.Some?
    requires ParseCategory(req.update.value.category).None?
    ensures var r := Run(stored, req, today, freshId);
      r.saved.None? && Aborted in r.reports
  {
    var s0 := State(stored, map[], [], false);
    var s1 := DoAdd(s0, req.add, freshId, today);
    assert !s1.halted;
    var s2 := DoUpdate(s1, req.update);
    assert s2.halted && Aborted in s2.reports;
    HaltedStaysHalted(s2, req, today.month);
  }

  /** Once halted, the remaining steps change nothing but may not add reports either. */
  lemma HaltedStaysHalted(s: State, req: Request, m: Month)
    requires s.halted
    ensures AfterSummary(DoSummary(DoDelete(s, req.delete), req.summary), req, m) == s
  {
  }

  /**
   Add then summary in one run: the summary total is the loaded total plus the
   new amount.
   */
  lemma AddThenSummary(stored: seq<Expense>, req: Request, today: Date, freshId: Uuid, amount: Cents)
    requires IsValid(today) && !req.help
    requires req.add.Some? && req.add.value.amount == Some(amount)
    requires req.update.None? && req.delete.None? && req.summary
    ensures Summary(Total(stored) + amount) in Run(stored, req, today, freshId).reports
  {
    var s0 := State(stored, map[], [], false);
    var s4 := DoSummary(Mutations(s0, req, today, freshId), req.summary);
    SummaryAfterAdd(stored, req, today, freshId, amount);
    ReportsOnlyGrow(s4, req, today.month);
    var t := AfterSummary(s4, req, today.month);
    assert t.reports[|s4.reports| - 1] == Summary(Total(stored) + amount);
    assert Run(stored, req, today, freshId).reports == t.reports;
  }

  /** The summary right after an add reports the loaded total plus the new amount. */
  lemma SummaryAfterAdd(stored: seq<Expense>, req: Request, today: Date, freshId: Uuid, amount: Cents)
    requires IsValid(today)
    requires req.add.Some? && req.add.value.amount == Some(amount)
    requires req.update.None? && req.delete.None? && req.summary
    ensures var s4 := DoSummary(Mutations(State(stored, map[], [], false), req, today, freshId), req.summary);
      |s4.reports| > 0 && s4.reports[|s4.reports| - 1] == Summary(Total(stored) + amount)
  {
    var a := req.add.value;
    var s0 := State(stored, map[], [], false);
    var step := AddExpense(stored, Some(amount), a.description, a.category, freshId, today);
    var s1 := DoAdd(s0, req.add, freshId, today);
    assert s1 == Record(s0, step);
    assert !step.report.Aborted? && Total(step.expenses) == Total(stored) + amount by {
      AddRaisesTotal(stored, amount, a.description, a.category, freshId, today);
    }
    assert Mutations(s0, req, today, freshId) == s1;
    assert !s1.halted && s1.expenses == step.expenses && |step.expenses| > 0;
    assert ExpenseSummary(s1.expenses) == Summary(Total(stored) + amount);
  }

  /** The steps after the summary only append reports. */
  lemma ReportsOnlyGrow(s: State, req: Request, m: Month)
    ensures var t := AfterSummary(s, req, m);
      |s.reports| <= |t.reports| && forall i :: 0 <= i < |s.reports| ==> t.reports[i] == s.reports[i]
  {
    var s5 := DoList(s, req.listAll);
    assert s.reports <= s5.reports;
    var s6 := DoMonthSummary(s5, req.monthSummary);
    assert s5.reports <= s6.reports;
    var s7 := DoCategoryFilter(s6, req.categoryFilter);
    assert s6.reports <= s7.reports;
    var s8 := DoSetBudget(s7, req.setBudget);
    assert s7.reports <= s8.reports;
    var t := DoCheckBudget(s8, m);
    assert s8.reports <= t.reports;
    assert s.reports <= t.reports;
  }

  /**
   A budget set for the current month is checked in the same run: the warning
   appears exactly when the run reaches the save and the month's total over
   the saved list, all years together, is above the cap.
   */
  lemma SetBudgetThenWarn(stored: seq<Expense>, req: Request, today: Date, freshId: Uuid, cap: Cents)
    requires IsValid(today)
    requires req.setBudget == Some(BudgetArgs(Some(today.month), Some(cap)))
    ensures var r := Run(stored, req, today, freshId);
      BudgetWarning(today.month) in r.reports <==>
        r.saved.Some? && MonthlyTotal(SavedList(stored, req, today, freshId), today.month) > cap
  {
    if !req.help {
      var s0 := State(stored, map[], [], false);
      var s7 := DoCategoryFilter(DoMonthSummary(DoList(DoSummary(Mutations(s0, req, today, freshId),
                  req.summary), req.listAll), req.monthSummary), req.categoryFilter);
      BudgetsUntouchedBeforeSet(s0, req, today, freshId);
      BudgetWarningOnlyFromCheck(s0, req, today, freshId);
      var s8 := DoSetBudget(s7, req.setBudget);
      var t := DoCheckBudget(s8, today.month);
      assert Steps(s0, req, today, freshId) == t;
      if !s7.halted {
        SetThenCheck(s7.expenses, map[], today.month, cap);
        assert BudgetWarning(today.month) in t.reports <==> MonthlyTotal(t.expenses, today.month) > cap;
      } else {
        assert t == s7;
      }
    }
  }

  /**
   A `--month-summary` month outside 1-12 makes `Month.of` throw, so the run
   ends without a save, whatever came before it.
   */
  lemma MonthOutOfRangeAborts(stored: seq<Expense>, req: Request, today: Date, freshId: Uuid)
    requires IsValid(today) && !req.help
    requires req.monthSummary.Some? && !(1 <= req.monthSummary.value <= 12)
    ensures var r := Run(stored, req, today, freshId);
      r.saved.None? && Aborted in r.reports
  {
    var s0 := State(stored, map[], [], false);
    var s5 := DoList(DoSummary(Mutations(s0, req, today, freshId), req.summary), req.listAll);
    var s6 := DoMonthSummary(s5, req.monthSummary);
    assert s6.halted;
    var s7 := DoCategoryFilter(s6, req.categoryFilter);
    var s8 := DoSetBudget(s7, req.setBudget);
    assert Steps(s0, req, today, freshId) == DoCheckBudget(s8, today.month) == s6;
  }

  /**
   A `--set-budget` month name or amount that does not parse throws out of
   `main`, so the run ends without a save, whatever came before it.
   */
  lemma BadBudgetAborts(stored: seq<Expense>, req: Request, today: Date, freshId: Uuid)
    requires IsValid(today) && !req.help
    requires req.setBudget.Some? && (req.setBudget.value.month.None? || req.setBudget.value.amount.None?)
    ensures var r := Run(stored, req, today, freshId);
      r.saved.None? && Aborted in r.reports
  {
    var s0 := State(stored, map[], [], false);
    var s7 := DoCategoryFilter(DoMonthSummary(DoList(DoSummary(Mutations(s0, req, today, freshId),
                req.summary), req.listAll), req.monthSummary), req.categoryFilter);
    var s8 := DoSetBudget(s7, req.setBudget);
    assert s8.halted;
    assert Steps(s0, req, today, freshId) == DoCheckBudget(s8, today.month);
  }

  /** The steps of a run halt exactly for a request that makes `main` throw. */
  lemma HaltsIffAborts(stored: seq<Expense>, req: Request, today: Date, freshId: Uuid)
    requires IsValid(today)
    ensures Steps(State(stored, map[], [], false), req, today, freshId).halted <==> Aborts(req)
  {
    var s0 := State(stored, map[], [], false);
    var s1 := DoAdd(s0, req.add, freshId, today);
    assert !s1.halted;
    var s2 := DoUpdate(s1, req.update);
    assert s2.halted <==> req.update.Some? && UpdateAborts(req.update.value);
    var s3 := DoDelete(s2, req.delete);
    assert s3.halted == s2.halted;
    var s4 := DoSummary(s3, req.summary);
    assert s4.halted == s2.halted;
    var s5 := DoList(s4, req.listAll);
    assert s5.halted == s2.halted;
    var s6 := DoMonthSummary(s5, req.monthSummary);
    assert s6.halted <==> s2.halted || (req.monthSummary.Some? && !(1 <= req.monthSummary.value <= 12));
    var s7 := DoCategoryFilter(s6, req.categoryFilter);
    assert s7.halted == s6.halted;
    var s8 := DoSetBudget(s7, req.setBudget);
    assert Steps(s0, req, today, freshId) == DoCheckBudget(s8, today.month);
  }

  /** In a run that reaches the save, the steps after delete all run on the saved list. */
  lemma SavedRunMutations(stored: seq<Expense>, req: Request, today: Date, freshId: Uuid)
    requires IsValid(today) && !Aborts(req)
    ensures var s3 := Mutations(State(stored, map[], [], false), req, today, freshId);
      !s3.halted && s3.expenses == SavedList(stored, req, today, freshId)
  {
    var s0 := State(stored, map[], [], false);
    HaltsIffAborts(stored, req, today, freshId);
    QueriesKeepExpenses(Mutations(s0, req, today, freshId), req, today.month);
    MutationsFollowLedger(stored, req, today, freshId);
  }

  /** The steps after the list step keep every report already made. */
  lemma LaterReportsKept(s5: State, req: Request, m: Month)
    ensures var s6 := DoMonthSummary(s5, req.monthSummary);
      var s7 := DoCategoryFilter(s6, req.categoryFilter);
      var t := DoCheckBudget(DoSetBudget(s7, req.setBudget), m);
      s5.reports <= s6.reports && s6.reports <= s7.reports && s7.reports <= t.reports
  {
    var s6 := DoMonthSummary(s5, req.monthSummary);
    var s7 := DoCategoryFilter(s6, req.categoryFilter);
    var s8 := DoSetBudget(s7, req.setBudget);
    assert s7.reports <= s8.reports;
  }

  /** A requested `--summary` in a run that reaches the save reports the saved list's summary. */
  lemma SummaryReported(stored: seq<Expense>, req: Request, today: Date, freshId: Uuid)
    requires IsValid(today) && !req.help && !Aborts(req) && req.summary
    ensures ExpenseSummary(SavedList(stored, req, today, freshId)) in Run(stored, req, today, freshId).reports
  {
    var s0 := State(stored, map[], [], false);
    var s3 := Mutations(s0, req, today, freshId);
    SavedRunMutations(stored, req, today, freshId);
    var s4 := DoSummary(s3, req.summary);
    ReportsOnlyGrow(s4, req, today.month);
    var t := AfterSummary(s4, req, today.month);
    assert t.reports[|s4.reports| - 1] == ExpenseSummary(s3.expenses);
    assert Run(stored, req, today, freshId).reports == t.reports;
  }

  /** A requested `--list` in a run that reaches the save lists the saved list. */
  lemma ListAllReported(stored: seq<Expense>, req: Request, today: Date, freshId: Uuid)
    requires IsValid(today) && !req.help && !Aborts(req) && req.listAll
    ensures ListAll(SavedList(stored, req, today, freshId)) in Run(stored, req, today, freshId).reports
  {
    var s0 := State(stored, map[], [], false);
    var s3 := Mutations(s0, req, today, freshId);
    SavedRunMutations(stored, req, today, freshId);
    var s4 := DoSummary(s3, req.summary);
    assert !s4.halted && s4.expenses == s3.expenses;
    var s5 := DoList(s4, req.listAll);
    LaterReportsKept(s5, req, today.month);
    var t := Steps(s0, req, today, freshId);
    assert s5.reports <= t.reports;
    assert t.reports[|s5.reports| - 1] == ListAll(s3.expenses);
  }

  /** A requested `--month-summary` in a run that reaches the save summarises the saved list. */
  lemma MonthSummaryReported(stored: seq<Expense>, req: Request, today: Date, freshId: Uuid)
    requires IsValid(today) && !req.help && !Aborts(req) && req.monthSummary.Some?
    ensures MonthSummaryOf(SavedList(stored, req, today, freshId), req.monthSummary.value)
      in Run(stored, req, today, freshId).reports
  {
    var s0 := State(stored, map[], [], false);
    var s3 := Mutations(s0, req, today, freshId);
    SavedRunMutations(stored, req, today, freshId);
    var s4 := DoSummary(s3, req.summary);
    assert !s4.halted && s4.expenses == s3.expenses;
    var s5 := DoList(s4, req.listAll);
    assert !s5.halted && s5.expenses == s3.expenses;
    var s6 := DoMonthSummary(s5, req.monthSummary);
    LaterReportsKept(s5, req, today.month);
    var t := Steps(s0, req, today, freshId);
    assert s6.reports <= t.reports;
    assert t.reports[|s6.reports| - 1] == MonthSummaryOf(s3.expenses, req.monthSummary.value);
  }

  /** A requested `--category` filter in a run that reaches the save filters the saved list. */
  lemma CategoryFilterReported(stored: seq<Expense>, req: Request, today: Date, freshId: Uuid)
    requires IsValid(today) && !req.help && !Aborts(req) && req.categoryFilter.Some?
    ensures FilterByCategory(SavedList(stored, req, today, freshId), req.categoryFilter.value)
      in Run(stored, req, today, freshId).reports
  {
    var s0 := State(stored, map[], [], false);
    var s3 := Mutations(s0, req, today, freshId);
    SavedRunMutations(stored, req, today, freshId);
    var s4 := DoSummary(s3, req.summary);
    assert !s4.halted && s4.expenses == s3.expenses;
    var s5 := DoList(s4, req.listAll);
    assert !s5.halted && s5.expenses == s3.expenses;
    var s6 := DoMonthSummary(s5, req.monthSummary);
    assert !s6.halted && s6.expenses == s3.expenses;
    var s7 := DoCategoryFilter(s6, req.categoryFilter);
    LaterReportsKept(s5, req, today.month);
    var t := Steps(s0, req, today, freshId);
    assert s7.reports <= t.reports;
    assert t.reports[|s7.reports| - 1] == FilterByCategory(s3.expenses, req.categoryFilter.value);
  }
}

=== FILE: wrappers.dfy ===
/** The optional value used for lookups and parses that may fail. */
module Wrappers {

  datatype Option<+T> = None | Some(value: T) {

    /** The carried value, or `default` when there is none. */
    function GetOr(default: T): T {
      match this
      case Some(v) => v
      case None => default
    }
  }
}
